=== FILE: README.md ===
# Anonymous message bot: relay sessions, invite links and the message store

This project is a Dafny model of the core of a Telegram bot that relays anonymous messages.

- **Invite links.** A user gets a personal invite link whose `start` parameter is `"<id>_<hash10>"`. The decoder reads the integer before the first underscore.
- **Relay sessions.** Anyone who opens the link is put in a *sending* state aimed at that user. Their next text message is saved, relayed once, and the state is cleared.
- **Admin commands.** The owner can show the link, the statistics, and broadcast to every user.
- **Stores.** Behind the bot are two SQLite stores. `db.py` has users, messages, per-day analytics, blocks, reports and settings. `database.py` is a smaller legacy store with users and messages.

The modules follow the program's structure:

- `common.dfy` (`Common`): `Option`, Python's `text or default`, and a map lookup.
- `pystr.dfy` (`PyStr`): the Python string operations the bot relies on.
  - `str.split` with one separator character, and `join`.
  - The whitespace trim `int()` performs. This is Python's whitespace set minus the ASCII separators 28-31, which `int()` does not skip.
- `pyint.dfy` (`PyInt`): `str(int)` and `int(str)`.
  - Parsing allows surrounding whitespace, an optional sign and leading zeros.
  - The accepted language is also stated as an independent grammar.
- `link_codec.dfy` (`LinkCodec`): `generate_stable_user_link` and `extract_user_id_from_start`. The MD5 hex digest is a function parameter.
- `ordering.dfy` (`Ordering`): `ORDER BY join_date DESC` over a set of user ids.
- `store.dfy` (`Store`): `db.py`.
  - Every table is a value: maps keyed by the table's primary key or UNIQUE pair, and sequences in AUTOINCREMENT order.
  - Every function is a pure state transformer or query.
  - `CURRENT_TIMESTAMP` is an integer `now` argument, in seconds.
- `legacy_store.dfy` (`LegacyStore`): `database.py`.
- `relay.dfy` (`Relay`): the handlers of bot.py's `AnonymousMessageBot`.
  - Each handler is a function `(session, env, event) -> (session', actions)`.
  - The session is the pair `user_states` / `pending_messages`.
  - `env` carries what the collaborators answer: whether the recipient is registered, whether the save and the delivery succeed, the statistics, and the broadcast ids with their outcomes.
  - The actions are, in order: database calls (`AddUser`, `SaveMessage`), replies to the sender, and sends to other chats. This is why "exactly one reply" and "delivery only after a successful save" can be stated.

Some behaviour of the code is worth stating plainly, because the model makes it visible:

- The invite token is the decimal id plus a hash that is never checked.
  - Any string whose text before the first `_` is an integer decodes. Examples are `"07"`, `"+7_"` and `"7_anything"` (`LinkCodec.SuffixIgnored`, `LinkCodec.LeadingZeroAccepted`, `LinkCodec.PlusSignAccepted`).
  - A user's link is therefore forgeable by anyone who knows the id.
  - Surrounding whitespace is accepted, but a leading separator character such as `\x1c` is not (`LinkCodec.SeparatorPaddingRejected`).
- The handlers check no block list, admin ban or rate quota before relaying. They check only that the recipient is registered, and only when the link is opened. The store's predicates for these are modelled on their own.
- There is no reply mode and no photo relay: non-text messages get a refusal.
- The session is single-shot. It is cleared after one text, whatever the save and the delivery did.
- `bot.py` calls a `DatabaseHandler` with `get_user`, `save_message`, `get_stats` and `get_all_user_ids`. That class is not in `db.py`, so its answers are inputs of the relay model (`Relay.Env`).

## Model

| member | source | states |
|---|---|---|
| PyStr.Split | bot.py:46 | `str.split('_')` always yields at least one piece; no piece contains the separator, and joining the pieces with it gives back the input |
| PyStr.SplitHead | bot.py:46 | the first piece of `a + sep + b` is `a` whenever `a` has no separator, whatever `b` holds |
| PyStr.SplitWithoutSeparator | bot.py:46 | a text without the separator splits into itself alone |
| PyInt.Show | bot.py:41-42 | `str(user_id)` is non-empty, has no whitespace at either end and no underscore, and starts with `-` exactly for negative ids |
| PyInt.Parse | bot.py:46 | `int()` succeeds only on text that, once the whitespace `int()` skips is trimmed, is an optional sign followed by ASCII decimal digits (digit grouping with `_` and non-ASCII digits are not modelled, see below) |
| PyInt.ParseShow | bot.py:41-46 | `int(str(n)) == n` for every integer, zero and negatives included (CPython's digit limit aside, see below) |
| PyInt.ParseAcceptsExactlyLiterals | bot.py:46 | `int()` succeeds exactly on whitespace, optional sign, at least one ASCII digit, whitespace (both directions, against an independent grammar); the whitespace is the set `int()` skips, without the separators 28-31 |
| PyInt.SeparatorNotSkipped | bot.py:46 | `int("\x1c5")` fails: a separator character is not whitespace to `int()` |
| LinkCodec.HashPrefix | bot.py:41 | `[:10]` keeps exactly the first ten characters of the digest, or all of a shorter one |
| LinkCodec.InviteLink | bot.py:39-42 | the link is `https://t.me/`, then the bot's username, then `?start=`, then a parameter that decodes back to the user the link was made for |
| LinkCodec.StartParam | bot.py:41-42 | the start parameter's text before its first underscore is the decimal user id, whatever the digest |
| LinkCodec.ExtractUserId | bot.py:44-48 | decoding never fails with an index error, and yields an id exactly when the first `_`-piece is an integer literal |
| LinkCodec.ExtractInvertsStartParam | bot.py:39-48 | decoding a user's own start parameter gives back that user, for every integer id and every digest (CPython's digit limit aside, see below) |
| LinkCodec.SuffixIgnored | bot.py:46 | the hash part is not checked: the id followed by `_` and any text decodes to the id |
| LinkCodec.LeadingZeroAccepted | bot.py:46 | a non-canonical parameter with a leading zero and no hash still decodes |
| LinkCodec.PlusSignAccepted | bot.py:46 | a parameter with a plus sign and an empty hash still decodes |
| LinkCodec.StartParamInjective | bot.py:39-42 | different users get different start parameters |
| LinkCodec.EmptyHeadRejected | bot.py:44-48 | an empty parameter, or one starting with `_`, decodes to nothing |
| LinkCodec.SeparatorPaddingRejected | bot.py:44-48 | the parameter `"\x1c5_abc"` decodes to nothing, because `int()` raises on `"\x1c5"` |
| Ordering.FirstExists | db.py:523 | every non-empty set of users has one listed first by join date, newest first |
| Ordering.First | db.py:523 | the chosen user is in the set and precedes every other member by join date, ties by id |
| Ordering.NewestFirst | db.py:519-525 | the ordered list holds every id of the set exactly once, join dates non-increasing |
| Store.AddUser | db.py:176-212 | after a committed upsert the user exists; a re-added user keeps join date, bot flag, counters and admin block while names, language, premium and last activity are replaced; a new user starts with zero counters and no block; settings are created only when missing; a rollback changes nothing; other users are untouched |
| Store.UserExists | db.py:230-243 | a user exists exactly when `get_user_profile` finds them, and every user on the broadcast list exists |
| Store.UpdateUserActivity | db.py:214-228 | only the known user's `last_active` changes; an unknown user leaves the store as it was |
| Store.IsUserBlockedByAdmin | db.py:245-258 | only a stored user can be flagged; an unknown user reads as not blocked |
| Store.BlockUserByAdmin | db.py:260-275 | afterwards the user reads as blocked exactly when known, with the given reason; a no-op for unknown users; other users untouched |
| Store.UnblockUserByAdmin | db.py:277-292 | afterwards the user reads as not blocked and has no reason; a no-op for unknown users; other users untouched |
| Store.AdminUnblockUndoesBlock | db.py:266-286 | unblocking a user that was not blocked right after blocking them restores the store |
| Store.BlockUser | db.py:294-309 | afterwards the pair is blocked with the new reason and time, and every other pair reads as before |
| Store.UnblockUser | db.py:311-326 | afterwards the pair is not blocked, and every other pair reads as before |
| Store.IsBlocked | db.py:328-343 | a pair reads as blocked exactly when unblocking it would change the store |
| Store.BlockedFollowsLastWrite | db.py:294-343 | after any sequence of blocks and unblocks, a pair reads as blocked exactly when the latest write to it was a block, and as before when no write touched it |
| Store.BlockIsDirectional | db.py:317-337 | blocking or unblocking `(a, b)` does not change whether `b` blocks `a`; blocking `(a, b)` in an empty store does not make `b` block `a` |
| Store.UnblockUndoesBlock | db.py:300-320 | block then unblock of an unblocked pair restores the store |
| Store.ReblockReplacesReason | db.py:300-303 | re-blocking a pair equals blocking it once with the latest reason: one row per pair |
| Store.BumpAnalytics | db.py:368-380 | the day's row for the user gains one sent or one received message, or is created with a count of one; other rows unchanged |
| Store.AddMessage | db.py:345-389 | a committed call appends exactly one unread, unreported message with the next id and advances the id counter by one, adds one to the sender's sent and the recipient's received counter and nothing to anyone else, and bumps the day's analytics row of the sender (sent) and then of the recipient (received); a rollback changes nothing |
| Store.BumpCounters | db.py:357-365 | the two counter updates add one to the sender's sent count and one to the recipient's received count (both to one user who writes to themself), touch no other user, and create no row for an unknown id |
| Store.AddMessageKeepsIdsFresh | db.py:41 | message ids stay positive, distinct and below the AUTOINCREMENT counter |
| Store.MarkMessageRead | db.py:391-405 | only messages with that id become read, stamped with the time; all others unchanged |
| Store.MarkMessageReadKeepsIds | db.py:391-405 | marking a message read keeps message ids fresh and both row counts |
| Store.MarkMessageReadIdempotent | db.py:397-400 | marking the same message read twice at the same time equals marking it once |
| Store.ReportMessage | db.py:407-427 | one pending report is appended with the next report id, the report counter advances by one, and only messages with that id are flagged as reported |
| Store.ReportMessageKeepsIdsFresh | db.py:407-427 | after a report, message ids are still fresh and report ids are positive, distinct and below their AUTOINCREMENT counter |
| Store.GetUserStats | db.py:429-446 | the counts are the number of users and of messages; while message ids stay fresh the message count never exceeds the last AUTOINCREMENT id |
| Store.MessageCountBelowLastId | db.py:41 | distinct message ids drawn from 1 to the AUTOINCREMENT counter leave room for at most that many messages |
| Store.AddMessageCounted | db.py:429-441 | a committed message raises the message count by one and leaves the user count |
| Store.GetUserProfile | db.py:448-477 | a profile exists exactly for a stored user and carries their counters and join date |
| Store.ActivityShowsInProfile | db.py:214-228 | after `update_user_activity` the profile differs from the one before only in `last_active`, which is the new time |
| Store.AddMessageShowsInProfiles | db.py:356-365 | after a committed message the sender's profile shows one more sent message and the recipient's one more received, nobody else's changes |
| Store.Involving | db.py:488 | the selected messages are exactly those the user sent or received, each at most as often as it is stored |
| Store.InsertByTime | db.py:489 | inserting a message into a list adds exactly that message |
| Store.InsertKeepsOrder | db.py:489 | inserting into a newest-first list keeps it newest first |
| Store.SortNewestFirst | db.py:489 | the result is a permutation of the input with timestamps non-increasing |
| Store.Limit | db.py:490 | `LIMIT n` keeps a prefix of length `min(n, size)`, drawn from the input's rows, and a negative limit keeps everything |
| Store.RecentFacts | db.py:485-491 | the selected rows are a sub-multiset of the messages involving the user, newest first, as many as the limit allows |
| Store.RecentIsNewest | db.py:485-491 | a message involving the user that the limit dropped is no newer than any message kept |
| Store.GetMessageHistory | db.py:479-511 | entries involve the user, are newest first, number `min(limit, matches)`, each comes from a stored message, are marked `sent` exactly when the user is the sender, and carry distinct ids when the stored ids are distinct |
| Store.SubRowsKeepDistinctIds | db.py:485-491 | rows selected from a table with distinct ids, without repeating any stored row, have distinct ids |
| Store.RecentRowsDistinct | db.py:485-491 | with fresh message ids, the history query returns distinct messages |
| Store.HistoryKeepsNewest | db.py:485-503 | a message missing from the history is no newer than any entry in it |
| Store.ListedIds | db.py:519-531 | the listed ids are exactly the unflagged users with a non-zero id, each once, newest join date first |
| Store.GetAllUsers | db.py:513-539 | every row is an unflagged user with a non-zero id, once each, newest first, with a missing or empty username or first name read as `''` |
| Store.AllUsersComplete | db.py:527-531 | every unflagged user with a non-zero id is in the list |
| Store.GetUserSettings | db.py:600-629 | without a row the defaults are returned; with a row each flag is the truthiness of its column and the language is the stored value |
| Store.DefaultsMatchSchema | db.py:104-107 | the defaults returned without a row equal what a row holding the schema's column defaults reads as |
| Store.UpdateUserSettings | db.py:631-654 | only whitelisted keys change their column; other keys are ignored; no whitelisted key means no change; other users untouched |
| Store.UpdatedSettingsReadBack | db.py:600-654 | `get_user_settings` after `update_user_settings` reads each whitelisted key as written (the flags through `bool()`) and every other key as before; a user without a row still reads the defaults |
| Store.AddUserSettings | db.py:199-203 | re-adding a user keeps their settings, and a first add gives the defaults |
| Store.CountSinceCountsRows | db.py:662-665 | the windowed count equals the number of rows sent by the user and stamped at or after the window start |
| Store.CountSinceAtMostSent | db.py:662-665 | a windowed count never exceeds the user's total sent messages |
| Store.CountSinceAntitone | db.py:662-665 | an earlier window start counts at least as many messages |
| Store.WindowStart | db.py:662-665 | `datetime('now', '-N hours')` is non-NULL only for `0 <= N` below SQLite's modifier limit and a result inside SQLite's date range, and then lies exactly `N` hours before `now`; every such `N` gives a non-NULL start |
| Store.GetRateLimitCount | db.py:656-672 | with a representable window start, the count is the user's messages stamped at or after it; the count never exceeds the user's total sent messages, and is zero whenever the window start is NULL: a negative number of hours, or one at SQLite's modifier limit or beyond its date range |
| Store.RateCountIsSelectedRows | db.py:656-672 | with a representable window start, the count is the number of message rows from the user stamped at or after it: an older row or another sender's row never counts |
| Store.RateCountMonotone | db.py:662-665 | the count is non-decreasing in the number of hours as long as the wider window's start is inside SQLite's date range |
| Store.RateWindowPastRangeCountsNothing | db.py:662-665 | a window reaching before SQLite's earliest date counts nothing |
| Store.AddMessageCountsTowardsRate | db.py:662-665 | a message just added counts against its sender's window and nobody else's, for every window SQLite can represent, and against nobody's otherwise |
| Store.ReAddKeepsAdminBlock | db.py:189-195 | `add_user` never changes whether the admin flag is set |
| Store.AdminBlockHidesFromListing | db.py:519-524 | a flagged user drops out of the broadcast list and comes back once unblocked |
| LegacyStore.UserExists | database.py:79-93 | a user exists exactly when `get_user_info` finds them |
| LegacyStore.AddUser | database.py:58-76 | afterwards the user exists with the new names; a known user keeps their join date and a new one gets the current time; other users untouched |
| LegacyStore.AddMessage | database.py:96-111 | exactly one message with the next id is appended; users unchanged |
| LegacyStore.GetUserStats | database.py:114-132 | the counts are the number of users and of messages; the user count is at least the length of the broadcast list |
| LegacyStore.ListedRow | database.py:152-157 | a listed first name is never blank, because a missing or empty one reads as `'Unknown'` |
| LegacyStore.AddMessageCounted | database.py:102-126 | adding a message raises the message count by one and leaves the user count |
| LegacyStore.AddUserCounted | database.py:64-70 | adding a user raises the user count by one exactly when the user is new |
| LegacyStore.JoinDateSticks | database.py:64-70 | adding a user twice keeps the first join date and the latest names |
| LegacyStore.GetAllUsers | database.py:135-164 | every user with a non-zero id once, newest join date first, a missing or empty username as `''` and a missing or empty first name as `'Unknown'` |
| LegacyStore.EmptyFirstNameListedAsUnknown | database.py:152-157 | a user stored with an empty first name is listed as `'Unknown'` |
| LegacyStore.AllUsersComplete | database.py:149-157 | every user with a non-zero id is in the list |
| LegacyStore.GetUserInfo | database.py:167-184 | nothing exactly for an unknown user, otherwise the stored `(username, first_name)` pair |
| LegacyStore.AddUserThenInfo | database.py:173-180 | after `add_user`, `get_user_info` returns the names just written |
| Relay.LinkTarget | bot.py:64-65 | a link target is a decoded, non-zero id other than the sender |
| Relay.StartCommand | bot.py:50-102 | registers the sender then replies exactly once; the session changes exactly when the link decodes to a non-zero registered id other than the sender, and then the sender is pending on that id; the reply is the welcome text with the sender's own link without an argument, the invalid-link text for an undecodable, zero or own id, the unknown-recipient text for an unregistered id, and the invitation otherwise; the invariant is preserved |
| Relay.HandleMessage | bot.py:157-186 | exactly one reply; at most one save and one delivery; exactly one save, of the text to the pending target, when the sender is in the sending state with a non-zero target, and no save otherwise; a delivery follows immediately after a successful save of the same text to the pending target, with the anonymous header; after a save the session is closed and the last action is the reply for the outcome (save failed, sent, or not delivered); without a save the session is unchanged and the only action is the link hint, or "Something went wrong" for a sending state without a target |
| Relay.RelayedText | bot.py:161-179 | a sender in the sending state with a non-zero target gets, in order, the save of the text, on success the forward with the anonymous header and the sent or not-delivered reply, otherwise the save-failed reply, and the relay closed in every case |
| Relay.NewLinkCommand | bot.py:104-115 | a non-owner gets exactly the refusal; the session is unchanged |
| Relay.StatsCommand | bot.py:117-129 | a non-owner gets exactly the refusal; the session is unchanged |
| Relay.BroadcastLoop | bot.py:144-151 | one send per id, in order; `sent + failed` equals the number of ids and `sent` the number of successes |
| Relay.BroadcastCommand | bot.py:131-155 | non-owners are refused, no arguments gets the usage line and sends nothing, otherwise one send per id with the joined text and a summary whose counts add up to the number of ids |
| Relay.Handle | bot.py:200-213 | every event except a broadcast gets exactly one reply, and the session invariant is preserved |
| Relay.SomethingWrongUnreachable | bot.py:161-181 | under the invariant no event produces the "Something went wrong" reply |
| Relay.OpeningInviteLinkStartsRelay | bot.py:63-76 | opening the link of a registered user other than oneself makes the sender pending on that user, with the invitation reply |
| Relay.OwnLinkRejected | bot.py:63-86 | opening one's own link leaves the session unchanged and gets the invalid-link reply |
| Relay.SingleShot | bot.py:161-179 | the first text closes the relay whatever happens; a second text gets only the hint |
| Relay.StrayMessagesAreInert | bot.py:182-189 | a text without a session, or a non-text message, gets one reply and changes nothing |
| Relay.AdminCommandsRefuseOthers | bot.py:104-135 | every admin command from a non-owner gets only the refusal |
| Relay.RelayScenario | bot.py:63-179 | user 99 opens registered user 42's link and sends "hello": the message is saved, delivered to 42, 99 is told it was sent, and the session is empty again |

## Left out

- Telegram transport: the application builder, polling, Markdown rendering and async scheduling are not modelled. Events arrive already classified (`Relay.Event`); the filter expressions of `run` are reduced to that classification.
- Logging, `print` and `error_handler` are left out because they have no effect on state.
- Failures of the replies to the sender are left out. A reply is assumed to go through.
- `hashlib.md5` is a foreign call. It is the parameter `md5Hex`, and nothing is assumed about its output.
- `DatabaseHandler` is not part of this model. Its answers (`get_user`, `save_message`, `get_stats`, `get_all_user_ids`) are fields of `Relay.Env`, and each broadcast id comes paired with its delivery outcome.
- config.py is not part of this model. It only loads settings, and no code shown enforces its message quota.
- SQLite mechanics are left out: connections, `init_db`, `migrate_existing_data` and the indexes. Timestamps are Unix seconds, and `DATE('now')` is the day number `now / 86400`. The stored `'YYYY-MM-DD HH:MM:SS'` text compares in the same order as these numbers for dates in the years 0000 to 9999, which covers every `CURRENT_TIMESTAMP`.
- `get_admin_analytics` is left out. It is a read-only report over the analytics table. The table itself is updated by `Store.AddMessage`, but `active_time_seconds` is never written.
- Exceptions are modelled only where they matter. `add_user` and `add_message` roll back explicitly on failure (the `committed` flag). The other writers commit only after their last statement; `report_message` runs two. A failure skips `commit()`, and `close()` discards the open transaction, so the store is left unchanged. The model does not represent that failure path.
- The fallback values returned on a failed read (`[]`, `(0, 0)`, `{}`, `False`) are not modelled.
- Store.UpdateUserSettings: values are stored as given. SQLite's column affinity, which would turn `'1'` into `1` in an INTEGER column, is not modelled.
- Store.GetMessageHistory: messages with equal timestamps come in insertion-sort order. SQL leaves their order unspecified, so the contract states only the timestamp order.
- Store.ListedIds: users with equal join dates are listed by ascending id, which SQL leaves unspecified. The same holds for LegacyStore.GetAllUsers.
- Store.IsUserBlockedByAdmin: for an unknown user the source returns `None` rather than `False`. Both are falsy, so the model returns `false`.
- Store.GetRateLimitCount: the window start is compared as a number, not as the `datetime()` text. The two agree for the stored timestamps described above.
- PyInt.Parse: CPython refuses `int()` and `str()` on integers of more than 4300 digits. The model has no such limit. A Telegram message holds at most 4096 characters, so no start parameter reaches it.
- PyInt.Parse: ASCII digits only. `int()` also accepts `_` between digits (`int("1_0")` is 10) and non-ASCII decimal digits (`int("\u0663")` is 3); the model returns `None` for both. A start parameter never carries `_` into `int()`, because the split removes it.
- PyInt.ParseAcceptsExactlyLiterals: the grammar is ASCII digits without `_` grouping, so "exactly" holds against that grammar and not against CPython for grouped or non-ASCII-digit literals.
- LinkCodec.ExtractUserId: `int()` also accepts non-ASCII decimal digits (for example Arabic-Indic digits). The model accepts ASCII digits only, so such parameters decode to nothing here. Underscores inside numbers never reach `int()` because the split removes them.
- Relay.Handle: for a broadcast the number of replies is stated by `Relay.BroadcastCommand` rather than by this contract.

=== FILE: common.dfy ===
/** Small shared datatypes. */
module Common {

  /** Python's `None` or a present value. */
  datatype Option<+T> = None | Some(value: T)

  /** Python's `text or default` on a nullable TEXT column: `None` and the
      empty string are both falsy, so both give `default`. */
  function OrText(s: Option<string>, default: string): (r: string)
    ensures s.Some? && s.value != "" ==> r == s.value
    ensures s.None? || s.value == "" ==> r == default
  {
    if s.Some? && s.value != "" then s.value else default
  }

  /** A subset is no larger than its superset. */
  lemma SubsetCount<T>(a: set<T>, b: set<T>)
    requires a <= b
    ensures |a| <= |b|
  {
    assert b == a + (b - a);
  }

  /** Looks a key up in a map the way `dict.get` does. */
  function Get<K, V>(m: map<K, V>, k: K): (r: Option<V>)
    ensures r.Some? <==> k in m
    ensures r.Some? ==> r.value == m[k]
  {
    if k in m then Some(m[k]) else None
  }
}

=== FILE: legacy_store.dfy ===
/** The smaller SQLite store of database.py: a `users` table keyed by
    `user_id` and an append-only `messages` table. Timestamps are integer
    seconds; `now` stands for `CURRENT_TIMESTAMP`. */
module LegacyStore {
  import opened Common
  import Ordering

  datatype User = User(username: Option<string>, firstName: Option<string>, joinDate: int)

  datatype Message = Message(id: int, fromUser: int, toUser: int, content: string, timestamp: int)

  datatype Db = Db(users: map<int, User>, messages: seq<Message>, lastMessageId: int)

  /** `user_exists`: the user has a row, which is exactly when
      `get_user_info` finds one. */
  function UserExists(db: Db, uid: int): (b: bool)
    ensures b <==> GetUserInfo(db, uid).Some?
  {
    uid in db.users
  }

  /** `add_user`: `INSERT OR REPLACE` whose join date is the old row's,
      when there is one (the `COALESCE` subquery), so re-adding a user
      overwrites the names and keeps the join date. */
  function AddUser(db: Db, uid: int, username: Option<string>, firstName: Option<string>, now: int): (db': Db)
    ensures UserExists(db', uid)
    ensures db'.users.Keys == db.users.Keys + {uid}
    ensures db'.users[uid].username == username && db'.users[uid].firstName == firstName
    ensures uid in db.users ==> db'.users[uid].joinDate == db.users[uid].joinDate
    ensures uid !in db.users ==> db'.users[uid].joinDate == now
    ensures forall v :: v != uid ==> Get(db'.users, v) == Get(db.users, v)
    ensures db'.messages == db.messages && db'.lastMessageId == db.lastMessageId
  {
    var joinDate := if uid in db.users then db.users[uid].joinDate else now;
    db.(users := db.users[uid := User(username, firstName, joinDate)])
  }

  /** `add_message`: appends one message with the next AUTOINCREMENT id. */
  function AddMessage(db: Db, fromUser: int, toUser: int, content: string, now: int): (db': Db)
    ensures db'.messages == db.messages + [Message(db.lastMessageId + 1, fromUser, toUser, content, now)]
    ensures db'.users == db.users
  {
    var id := db.lastMessageId + 1;
    db.(messages := db.messages + [Message(id, fromUser, toUser, content, now)], lastMessageId := id)
  }

  /** `get_user_stats`: the row counts of `users` and `messages`. */
  function GetUserStats(db: Db): (r: (int, int))
    ensures r.0 == |db.users.Keys| && r.1 == |db.messages|
    ensures |GetAllUsers(db)| <= r.0
  {
    SubsetCount(db.users.Keys - {0}, db.users.Keys);
    (|db.users|, |db.messages|)
  }

  /** Adding a message raises the message count by one and leaves the user
      count alone. */
  lemma AddMessageCounted(db: Db, fromUser: int, toUser: int, content: string, now: int)
    ensures GetUserStats(AddMessage(db, fromUser, toUser, content, now)) == (GetUserStats(db).0, GetUserStats(db).1 + 1)
  {
  }

  /** Adding a user raises the user count by one exactly when the user is
      new. */
  lemma AddUserCounted(db: Db, uid: int, username: Option<string>, firstName: Option<string>, now: int)
    ensures GetUserStats(AddUser(db, uid, username, firstName, now)).0 ==
      GetUserStats(db).0 + (if UserExists(db, uid) then 0 else 1)
    ensures GetUserStats(AddUser(db, uid, username, firstName, now)).1 == GetUserStats(db).1
  {
  }

  /** Re-adding a user twice keeps the first join date whatever the clock
      says later. */
  lemma JoinDateSticks(db: Db, uid: int, u1: Option<string>, f1: Option<string>, t1: int,
                       u2: Option<string>, f2: Option<string>, t2: int)
    ensures AddUser(AddUser(db, uid, u1, f1, t1), uid, u2, f2, t2).users[uid] ==
      User(u2, f2, if UserExists(db, uid) then db.users[uid].joinDate else t1)
  {
  }

  datatype ListedUser = ListedUser(userId: int, username: string, firstName: string)

  /** One row of the list: `(user_id, username or '', first_name or 'Unknown')`. */
  function ListedRow(db: Db, uid: int): (r: ListedUser)
    requires uid in db.users
    ensures r.userId == uid
    ensures r.firstName != ""
  {
    ListedUser(uid, OrText(db.users[uid].username, ""), OrText(db.users[uid].firstName, "Unknown"))
  }

  /** `get_all_users`: every user with a non-zero id exactly once, newest
      join date first, a missing username read as `''` and a missing first
      name as `'Unknown'`. Dropping id 0 before ordering gives the same list
      as dropping it after, since the order is total. */
  function GetAllUsers(db: Db): (r: seq<ListedUser>)
    ensures forall i :: 0 <= i < |r| ==>
      && r[i].userId in db.users
      && r[i].userId != 0
      && r[i].username == OrText(db.users[r[i].userId].username, "")
      && r[i].firstName == OrText(db.users[r[i].userId].firstName, "Unknown")
    ensures forall i, j :: 0 <= i < j < |r| ==> r[i].userId != r[j].userId
    ensures forall i, j :: 0 <= i < j < |r| ==> db.users[r[i].userId].joinDate >= db.users[r[j].userId].joinDate
    ensures |r| == |db.users.Keys - {0}|
  {
    var listed := db.users.Keys - {0};
    var ids := Ordering.NewestFirst(Ordering.JoinDates(db.users, (r: User) => r.joinDate), listed);
    seq(|ids|, i requires 0 <= i < |ids| => ListedRow(db, ids[i]))
  }

  /** Every user with a non-zero id is listed. */
  lemma AllUsersComplete(db: Db, u: int)
    requires UserExists(db, u) && u != 0
    ensures exists i :: 0 <= i < |GetAllUsers(db)| && GetAllUsers(db)[i].userId == u
  {
    var ids := Ordering.NewestFirst(Ordering.JoinDates(db.users, (r: User) => r.joinDate), db.users.Keys - {0});
    assert u in ids;
    var i :| 0 <= i < |ids| && ids[i] == u;
    assert GetAllUsers(db)[i].userId == u;
  }

  /** A first name stored as `''` is listed as `'Unknown'`, exactly like a
      missing one, because the empty string is falsy. */
  lemma EmptyFirstNameListedAsUnknown(db: Db, uid: int)
    requires uid != 0 && uid in db.users && db.users[uid].firstName == Some("")
    ensures exists i :: 0 <= i < |GetAllUsers(db)| && GetAllUsers(db)[i] == ListedUser(uid, OrText(db.users[uid].username, ""), "Unknown")
  {
    AllUsersComplete(db, uid);
  }

  /** `get_user_info`: `None` for an unknown user, the stored
      `(username, first_name)` pair otherwise (a two-column row is always
      truthy, even when both columns are NULL). */
  function GetUserInfo(db: Db, uid: int): (r: Option<(Option<string>, Option<string>)>)
    ensures r.None? <==> uid !in db.users
    ensures r.Some? ==> r.value == (db.users[uid].username, db.users[uid].firstName)
  {
    if uid in db.users then Some((db.users[uid].username, db.users[uid].firstName)) else None
  }

  /** After `add_user`, `get_user_info` returns the names just written. */
  lemma AddUserThenInfo(db: Db, uid: int, username: Option<string>, firstName: Option<string>, now: int)
    ensures GetUserInfo(AddUser(db, uid, username, firstName, now), uid) == Some((username, firstName))
  {
  }
}

=== FILE: link_codec.dfy ===
/** The invite-link codec of bot.py: a user's start parameter is the
    decimal id, an underscore and ten hex digits of the MD5 of the decimal
    id; decoding reads the integer before the first underscore and ignores
    the rest. The MD5 digest is a foreign call and arrives as a parameter. */
module LinkCodec {
  import opened Common
  import PyStr
  import PyInt

  /** `h[:10]`: at most the first ten characters. */
  function HashPrefix(h: string): (r: string)
    ensures |r| <= 10 && |r| <= |h| && r == h[..|r|]
    ensures |h| >= 10 ==> |r| == 10
    ensures |h| < 10 ==> r == h
  {
    if |h| < 10 then h else h[..10]
  }

  /** The `start` parameter of a user's link: `"<id>_<hash10>"`, where
      `md5Hex` stands for `hashlib.md5(text.encode()).hexdigest()`. */
  function StartParam(uid: int, md5Hex: string -> string): (p: string)
    ensures PyStr.Split(p, '_')[0] == PyInt.Show(uid)
  {
    var idText := PyInt.Show(uid);
    PyStr.SplitHead(idText, '_', HashPrefix(md5Hex(idText)));
    idText + "_" + HashPrefix(md5Hex(idText))
  }

  /** `generate_stable_user_link`: the shareable link
      `https://t.me/<bot>?start=<param>`, whose parameter decodes back to
      the user it was made for. */
  function InviteLink(botUsername: string, uid: int, md5Hex: string -> string): (link: string)
    ensures |link| >= |"https://t.me/"| + |botUsername| + |"?start="|
    ensures link[..|"https://t.me/"|] == "https://t.me/"
    ensures link[|"https://t.me/"|..|"https://t.me/"| + |botUsername|] == botUsername
    ensures link[|"https://t.me/"| + |botUsername|..|"https://t.me/"| + |botUsername| + |"?start="|] == "?start="
    ensures ExtractUserId(link[|"https://t.me/"| + |botUsername| + |"?start="|..]) == Some(uid)
  {
    var param := StartParam(uid, md5Hex);
    var link := "https://t.me/" + botUsername + "?start=" + param;
    var n := |"https://t.me/"| + |botUsername|;
    assert link[|"https://t.me/"|..n] == botUsername;
    assert link[n..n + |"?start="|] == "?start=";
    assert link[n + |"?start="|..] == param;
    ExtractInvertsStartParam(uid, md5Hex);
    link
  }

  /** `int(start_param.split('_')[0])`, with `None` for the `ValueError`.
      The split always has a first piece, so no `IndexError` is possible:
      the index below is checked against the split's contract. */
  function ExtractUserId(startParam: string): (r: Option<int>)
    ensures r.Some? <==> PyInt.IsIntLiteral(PyStr.Split(startParam, '_')[0])
  {
    PyInt.ParseAcceptsExactlyLiterals(PyStr.Split(startParam, '_')[0]);
    PyInt.Parse(PyStr.Split(startParam, '_')[0])
  }

  /** Decoding the start parameter of a user's link gives back that user,
      for every integer id, negative ones and zero included, whatever the
      digest is. */
  lemma ExtractInvertsStartParam(uid: int, md5Hex: string -> string)
    ensures ExtractUserId(StartParam(uid, md5Hex)) == Some(uid)
  {
    PyInt.ParseShow(uid);
  }

  /** The part after the first underscore is ignored, not verified: any
      suffix decodes to the same id. */
  lemma SuffixIgnored(uid: int, suffix: string)
    ensures ExtractUserId(PyInt.Show(uid) + "_" + suffix) == Some(uid)
  {
    PyStr.SplitHead(PyInt.Show(uid), '_', suffix);
    PyInt.ParseShow(uid);
  }

  /** Different users get different start parameters. */
  lemma StartParamInjective(u: int, v: int, md5Hex: string -> string)
    requires u != v
    ensures StartParam(u, md5Hex) != StartParam(v, md5Hex)
  {
    ExtractInvertsStartParam(u, md5Hex);
    ExtractInvertsStartParam(v, md5Hex);
  }

  /** Decoding does not insist on the canonical form: a leading zero and
      no hash at all still name user 7. */
  lemma LeadingZeroAccepted()
    ensures ExtractUserId("07") == Some(7)
  {
    assert PyStr.Split("07", '_')[0] == "07" by {
      PyStr.SplitWithoutSeparator("07", '_');
    }
    assert PyInt.AllDigits("07") && PyInt.DigitsValue("07") == 7 by {
      assert "07"[..1] == "0" && "0"[..0] == "";
    }
    assert PyInt.ParseSigned("07") == Some(7) by {
      PyInt.ParseDigits("07");
    }
    assert PyInt.Parse("07") == Some(7) by {
      PyInt.StripUnpadded("07");
    }
  }

  /** A plus sign and an empty hash are accepted too. */
  lemma PlusSignAccepted()
    ensures ExtractUserId("+7_") == Some(7)
  {
    assert PyStr.Split("+7_", '_')[0] == "+7" by {
      PyStr.SplitHead("+7", '_', "");
      assert "+7" + "_" + "" == "+7_";
    }
    PlusSevenParses();
  }

  /** `int("+7")` is 7. */
  lemma PlusSevenParses()
    ensures PyInt.Parse("+7") == Some(7)
  {
    assert PyInt.ParseSigned("+7") == Some(7) by {
      assert "+7"[1..] == "7" && "7"[..0] == "";
    }
    PyInt.StripUnpadded("+7");
  }

  /** A parameter whose first piece starts with an information separator
      decodes to nothing, because `int()` raises on it. */
  lemma SeparatorPaddingRejected()
    ensures ExtractUserId("\U{1C}5_abc") == None
  {
    assert PyStr.Split("\U{1C}5_abc", '_')[0] == "\U{1C}5" by {
      PyStr.SplitHead("\U{1C}5", '_', "abc");
      assert "\U{1C}5" + "_" + "abc" == "\U{1C}5_abc";
    }
    PyInt.SeparatorNotSkipped();
  }

  /** An empty parameter, or one whose first piece is empty, decodes to
      `None`. */
  lemma EmptyHeadRejected(rest: string)
    ensures ExtractUserId("") == None
    ensures ExtractUserId("_" + rest) == None
  {
    PyStr.SplitWithoutSeparator("", '_');
    PyStr.SplitHead("", '_', rest);
    assert "" + "_" + rest == "_" + rest;
    assert !PyInt.IsIntLiteral("");
  }
}

=== FILE: ordering.dfy ===
/** `ORDER BY join_date DESC` over a set of user ids. SQL leaves the order
    of equal join dates open; the model settles it by ascending id, the
    order in which SQLite scans a table keyed by `user_id`. */
module Ordering {

  /** The `join_date` column of a users table, keyed by `user_id`. */
  function JoinDates<R>(users: map<int, R>, joinDate: R -> int): (m: map<int, int>)
    ensures m.Keys == users.Keys
    ensures forall u :: u in users ==> m[u] == joinDate(users[u])
  {
    map u | u in users :: joinDate(users[u])
  }

  /** `a` is listed no later than `b`. */
  predicate Precedes(joined: map<int, int>, a: int, b: int)
    requires a in joined && b in joined
  {
    joined[a] > joined[b] || (joined[a] == joined[b] && a <= b)
  }

  /** The id listed first among `ks`. */
  ghost predicate IsFirst(joined: map<int, int>, ks: set<int>, m: int)
    requires ks <= joined.Keys
  {
    m in ks && forall y :: y in ks ==> Precedes(joined, m, y)
  }

  /** Every non-empty set of ids has a first one. */
  lemma {:induction false} FirstExists(joined: map<int, int>, ks: set<int>)
    requires ks <= joined.Keys && ks != {}
    ensures exists m :: IsFirst(joined, ks, m)
    decreases |ks|
  {
    if forall e :: e !in ks {
      assert false;
    }
    var x :| x in ks;
    var rest := ks - {x};
    if rest == {} {
      assert ks == {x};
      assert IsFirst(joined, ks, x);
    } else {
      FirstExists(joined, rest);
      var m :| IsFirst(joined, rest, m);
      if Precedes(joined, m, x) {
        assert IsFirst(joined, ks, m);
      } else {
        forall y | y in ks
          ensures Precedes(joined, x, y)
        {
          if y != x {
            assert Precedes(joined, m, y);
          }
        }
        assert IsFirst(joined, ks, x);
      }
    }
  }

  /** The id that `ORDER BY join_date DESC` lists first among `ks`. */
  function First(joined: map<int, int>, ks: set<int>): (m: int)
    requires ks <= joined.Keys && ks != {}
    ensures m in ks
    ensures forall y :: y in ks ==> Precedes(joined, m, y)
  {
    FirstExists(joined, ks);
    var m :| m in ks && forall y :: y in ks ==> Precedes(joined, m, y);
    m
  }

  /** `r` lists the ids of `ks`, each exactly once, newest join date first. */
  predicate Lists(joined: map<int, int>, ks: set<int>, r: seq<int>)
    requires ks <= joined.Keys
  {
    && |r| == |ks|
    && (forall i :: 0 <= i < |r| ==> r[i] in ks)
    && (forall x :: x in ks ==> x in r)
    && (forall i, j :: 0 <= i < j < |r| ==> r[i] != r[j])
    && (forall i, j :: 0 <= i < j < |r| ==> joined[r[i]] >= joined[r[j]])
  }

  /** The ids of `ks`, newest join date first: each id exactly once. */
  function NewestFirst(joined: map<int, int>, ks: set<int>): (r: seq<int>)
    requires ks <= joined.Keys
    ensures |r| == |ks|
    ensures forall i :: 0 <= i < |r| ==> r[i] in ks
    ensures forall x :: x in ks ==> x in r
    ensures forall i, j :: 0 <= i < j < |r| ==> r[i] != r[j]
    ensures forall i, j :: 0 <= i < j < |r| ==> joined[r[i]] >= joined[r[j]]
    decreases |ks|
  {
    if ks == {} then []
    else
      var m := First(joined, ks);
      var rest := NewestFirst(joined, ks - {m});
      FirstThenRest(joined, ks, m, rest);
      [m] + rest
  }

  /** The first id followed by a listing of the others lists them all. */
  lemma FirstThenRest(joined: map<int, int>, ks: set<int>, m: int, rest: seq<int>)
    requires ks <= joined.Keys && m in ks
    requires forall y :: y in ks ==> Precedes(joined, m, y)
    requires Lists(joined, ks - {m}, rest)
    ensures Lists(joined, ks, [m] + rest)
  {
    var r := [m] + rest;
    forall i, j | 0 <= i < j < |r|
      ensures r[i] != r[j] && joined[r[i]] >= joined[r[j]]
    {
      assert r[j] == rest[j - 1] && r[j] in ks;
      if i > 0 {
        assert r[i] == rest[i - 1];
      }
    }
  }
}

=== FILE: pyint.dfy ===
/** Python's `str(n)` and `int(s)` on integers, over ASCII decimal digits. */
module PyInt {
  import opened Common
  import PyStr

  /** An ASCII decimal digit. `int()` also takes other Unicode decimal
      digits and `_` between digits; this model does not. */
  predicate IsDigit(c: char) {
    '0' <= c <= '9'
  }

  predicate AllDigits(s: string) {
    forall i :: 0 <= i < |s| ==> IsDigit(s[i])
  }

  function DigitValue(c: char): nat
    requires IsDigit(c)
  {
    c as int - '0' as int
  }

  function DigitChar(d: nat): (c: char)
    requires d < 10
    ensures IsDigit(c) && DigitValue(c) == d
  {
    ('0' as int + d) as char
  }

  /** The value of a run of decimal digits, most significant first; leading
      zeros are allowed, as `int()` allows them. */
  function DigitsValue(ds: string): nat
    requires AllDigits(ds)
    decreases |ds|
  {
    if |ds| == 0 then 0 else DigitsValue(ds[..|ds| - 1]) * 10 + DigitValue(ds[|ds| - 1])
  }

  /** `str(n)` for a non-negative `n`: digits only, no leading zero. */
  function ShowNat(n: nat): (s: string)
    ensures |s| >= 1 && AllDigits(s)
    ensures s[0] == '0' ==> n == 0
    decreases n
  {
    if n < 10 then [DigitChar(n)] else ShowNat(n / 10) + [DigitChar(n % 10)]
  }

  /** `str(n)`: a minus sign for negative numbers, then the digits. */
  function Show(n: int): (s: string)
    ensures |s| >= 1
    ensures !PyStr.IsIntSpace(s[0]) && !PyStr.IsIntSpace(s[|s| - 1])
    ensures '_' !in s
    ensures s[0] == '-' <==> n < 0
  {
    if n < 0 then "-" + ShowNat(-n) else ShowNat(n)
  }

  /** A signed run of digits: an optional `+` or `-`, then at least one digit. */
  predicate SignedDigits(t: string) {
    || (|t| > 0 && AllDigits(t))
    || (|t| > 1 && (t[0] == '+' || t[0] == '-') && AllDigits(t[1..]))
  }

  /** `s[i..k]` is a signed run of digits with only whitespace around it. */
  ghost predicate LiteralAt(s: string, i: int, k: int) {
    && 0 <= i < k <= |s|
    && PyStr.AllIntSpace(s[..i])
    && PyStr.AllIntSpace(s[k..])
    && SignedDigits(s[i..k])
  }

  /** The strings Python's `int(s)` accepts (over ASCII digits), stated as
      a grammar: whitespace, an optional sign, digits, whitespace. */
  ghost predicate IsIntLiteral(s: string) {
    exists i, k :: LiteralAt(s, i, k)
  }

  /** `int` of text already stripped of surrounding whitespace. */
  function ParseSigned(t: string): (r: Option<int>)
    ensures r.Some? ==> SignedDigits(t)
  {
    var digits := if |t| > 0 && (t[0] == '-' || t[0] == '+') then t[1..] else t;
    if |digits| > 0 && AllDigits(digits) then
      var v := DigitsValue(digits) as int;
      Some(if t[0] == '-' then -v else v)
    else
      None
  }

  /** `int(s)`: `None` stands for the `ValueError` Python raises. */
  function Parse(s: string): (r: Option<int>)
    ensures r.Some? ==> SignedDigits(PyStr.Strip(s))
  {
    ParseSigned(PyStr.Strip(s))
  }

  lemma DigitsValueSnoc(ds: string, c: char)
    requires AllDigits(ds) && IsDigit(c)
    ensures AllDigits(ds + [c])
    ensures DigitsValue(ds + [c]) == DigitsValue(ds) * 10 + DigitValue(c)
  {
    assert (ds + [c])[..|ds|] == ds;
  }

  /** Reading back the digits `str` wrote gives the number. */
  lemma {:induction false} DigitsValueOfShowNat(n: nat)
    ensures DigitsValue(ShowNat(n)) == n
    decreases n
  {
    if n >= 10 {
      DigitsValueOfShowNat(n / 10);
      DigitsValueSnoc(ShowNat(n / 10), DigitChar(n % 10));
    }
  }

  /** A word with no whitespace at either end is its own trim. */
  lemma StripUnpadded(s: string)
    requires |s| > 0 && !PyStr.IsIntSpace(s[0]) && !PyStr.IsIntSpace(s[|s| - 1])
    ensures PyStr.Strip(s) == s
  {
    PyStr.StripOfPadded(s, 0, |s|);
    assert s[0..|s|] == s;
  }

  /** `int` of a non-empty run of digits is its value. */
  lemma ParseDigits(s: string)
    requires |s| > 0 && AllDigits(s)
    ensures ParseSigned(s) == Some(DigitsValue(s) as int)
  {
    assert IsDigit(s[0]);
  }

  /** `int` of a minus sign followed by a non-empty run of digits. */
  lemma ParseNegative(s: string)
    requires |s| > 1 && s[0] == '-' && AllDigits(s[1..])
    ensures ParseSigned(s) == Some(-(DigitsValue(s[1..]) as int))
  {
  }

  /** `int(str(n)) == n` for every integer, negative ones included. */
  lemma ParseShow(n: int)
    ensures Parse(Show(n)) == Some(n)
  {
    var s := Show(n);
    StripUnpadded(s);
    if n < 0 {
      assert s[1..] == ShowNat(-n);
      DigitsValueOfShowNat(-n);
      ParseNegative(s);
    } else {
      DigitsValueOfShowNat(n);
      ParseDigits(s);
    }
  }

  lemma ParseSignedAccepts(t: string)
    ensures ParseSigned(t).Some? <==> SignedDigits(t)
  {
    if |t| > 0 && AllDigits(t) {
      assert IsDigit(t[0]);
    }
  }

  /** A string `int` accepts is a literal of the grammar. */
  lemma ParseSound(s: string)
    requires Parse(s).Some?
    ensures IsIntLiteral(s)
  {
    StrippedLiteral(s);
  }

  /** A signed run of digits left by the trim sits between the whitespace
      the trim removed. */
  lemma StrippedLiteral(s: string)
    requires SignedDigits(PyStr.Strip(s))
    ensures LiteralAt(s, PyStr.StripStart(s), PyStr.StripEnd(s))
  {
    var i, k := PyStr.StripStart(s), PyStr.StripEnd(s);
    assert PyStr.AllIntSpace(s[..i]) by {
      forall j | 0 <= j < i
        ensures PyStr.IsIntSpace(s[..i][j])
      {
        assert s[..i][j] == s[j];
      }
    }
    assert PyStr.AllIntSpace(s[k..]) by {
      forall j | 0 <= j < |s| - k
        ensures PyStr.IsIntSpace(s[k..][j])
      {
        assert s[k..][j] == s[k + j];
      }
    }
  }

  /** `int` accepts every literal of the grammar. */
  lemma ParseComplete(s: string, i: int, k: int)
    requires LiteralAt(s, i, k)
    ensures Parse(s).Some?
  {
    var w := s[i..k];
    assert !PyStr.IsIntSpace(s[i]) && !PyStr.IsIntSpace(s[k - 1]) by {
      assert w[0] == s[i] && w[|w| - 1] == s[k - 1];
    }
    forall j | 0 <= j < i
      ensures PyStr.IsIntSpace(s[j])
    {
      assert s[..i][j] == s[j];
    }
    forall j | k <= j < |s|
      ensures PyStr.IsIntSpace(s[j])
    {
      assert s[k..][j - k] == s[j];
    }
    PyStr.StripOfPadded(s, i, k);
    ParseSignedAccepts(w);
  }

  /** `int(s)` succeeds exactly on the strings of the integer grammar: it
      never accepts anything else (the empty string included) and never
      rejects a well-formed literal. */
  lemma ParseAcceptsExactlyLiterals(s: string)
    ensures Parse(s).Some? <==> IsIntLiteral(s)
  {
    if Parse(s).Some? {
      ParseSound(s);
    }
    if IsIntLiteral(s) {
      var i, k :| LiteralAt(s, i, k);
      ParseComplete(s, i, k);
    }
  }

  /** The information separators 28-31 are not whitespace to `int()`:
      `int("\x1c5")` raises. */
  lemma SeparatorNotSkipped()
    ensures Parse("\U{1C}5") == None
  {
    StripUnpadded("\U{1C}5");
    assert !IsDigit("\U{1C}5"[0]);
  }
}

=== FILE: pystr.dfy ===
/** The few Python `str` operations the bot relies on, written out over
    `seq<char>`: the whitespace trim `int()` performs around a literal,
    `str.split(sep)` with a one-character separator, and `sep.join(parts)`. */
module PyStr {

  /** The whitespace `int()` skips around a literal. Among ASCII characters
      that is only tab, line feed, vertical tab, form feed, carriage return
      and space: the separators 28-31 satisfy `str.isspace()` but `int()`
      does not skip them. Beyond ASCII it is every character `str.isspace()`
      accepts, since `int()` first turns those into spaces. */
  predicate IsIntSpace(c: char) {
    || ('\t' <= c <= '\r')
    || c == ' '
    || c == '\U{85}'
    || c == '\U{A0}'
    || c == '\U{1680}'
    || ('\U{2000}' <= c <= '\U{200A}')
    || c == '\U{2028}'
    || c == '\U{2029}'
    || c == '\U{202F}'
    || c == '\U{205F}'
    || c == '\U{3000}'
  }

  predicate AllIntSpace(s: string) {
    forall i :: 0 <= i < |s| ==> IsIntSpace(s[i])
  }

  /** The first index at or after `i` that holds no whitespace, or `|s|`. */
  function SkipSpace(s: string, i: nat): (k: nat)
    requires i <= |s|
    ensures i <= k <= |s|
    ensures forall j :: i <= j < k ==> IsIntSpace(s[j])
    ensures k < |s| ==> !IsIntSpace(s[k])
    decreases |s| - i
  {
    if i < |s| && IsIntSpace(s[i]) then SkipSpace(s, i + 1) else i
  }

  /** The first index at or before `k` from which `s[..k]` holds only
      whitespace, or 0. */
  function SkipSpaceBack(s: string, k: nat): (i: nat)
    requires k <= |s|
    ensures i <= k
    ensures forall j :: i <= j < k ==> IsIntSpace(s[j])
    ensures 0 < i ==> !IsIntSpace(s[i - 1])
    decreases k
  {
    if 0 < k && IsIntSpace(s[k - 1]) then SkipSpaceBack(s, k - 1) else k
  }

  /** Where the trimmed text starts in `s`: everything before is
      whitespace. */
  function StripStart(s: string): (i: nat)
    ensures i <= |s|
    ensures forall j :: 0 <= j < i ==> IsIntSpace(s[j])
    ensures i < |s| ==> !IsIntSpace(s[i])
  {
    SkipSpace(s, 0)
  }

  /** Where the trimmed text ends in `s`: everything after is whitespace. */
  function StripEnd(s: string): (k: nat)
    ensures StripStart(s) <= k <= |s|
    ensures forall j :: k <= j < |s| ==> IsIntSpace(s[j])
    ensures StripStart(s) < k ==> !IsIntSpace(s[k - 1])
  {
    if StripStart(s) == |s| then |s| else SkipSpaceBack(s, |s|)
  }

  /** `s` without its leading and trailing whitespace, as `int()` reads it. */
  function Strip(s: string): (r: string)
    ensures |r| <= |s|
    ensures |r| > 0 ==> !IsIntSpace(r[0]) && !IsIntSpace(r[|r| - 1])
  {
    s[StripStart(s)..StripEnd(s)]
  }

  lemma {:induction false} SkipSpaceTo(s: string, i: nat, k: nat)
    requires i <= k < |s|
    requires forall j :: i <= j < k ==> IsIntSpace(s[j])
    requires !IsIntSpace(s[k])
    ensures SkipSpace(s, i) == k
    decreases k - i
  {
    if i < k {
      SkipSpaceTo(s, i + 1, k);
    }
  }

  lemma {:induction false} SkipSpaceBackTo(s: string, k: nat, i: nat)
    requires 0 < i <= k <= |s|
    requires forall j :: i <= j < k ==> IsIntSpace(s[j])
    requires !IsIntSpace(s[i - 1])
    ensures SkipSpaceBack(s, k) == i
    decreases k
  {
    if i < k {
      SkipSpaceBackTo(s, k - 1, i);
    }
  }

  /** Whitespace around a word that neither starts nor ends with whitespace
      is exactly what the trim removes. */
  lemma StripOfPadded(s: string, i: nat, k: nat)
    requires i < k <= |s|
    requires forall j :: 0 <= j < i ==> IsIntSpace(s[j])
    requires forall j :: k <= j < |s| ==> IsIntSpace(s[j])
    requires !IsIntSpace(s[i]) && !IsIntSpace(s[k - 1])
    ensures StripStart(s) == i && StripEnd(s) == k
    ensures Strip(s) == s[i..k]
  {
    SkipSpaceTo(s, 0, i);
    SkipSpaceBackTo(s, |s|, k);
  }

  /** `sep.join(parts)`. */
  function Join(parts: seq<string>, sep: string): string
    decreases |parts|
  {
    if |parts| == 0 then ""
    else if |parts| == 1 then parts[0]
    else parts[0] + sep + Join(parts[1..], sep)
  }

  /** `s.split(sep)` for a one-character separator: never empty, no piece
      contains the separator, and joining the pieces back gives `s`. */
  function Split(s: string, sep: char): (parts: seq<string>)
    ensures |parts| >= 1
    ensures forall i :: 0 <= i < |parts| ==> sep !in parts[i]
    ensures Join(parts, [sep]) == s
    decreases |s|
  {
    if |s| == 0 then [""]
    else
      var rest := Split(s[1..], sep);
      if s[0] == sep then
        assert Join([""] + rest, [sep]) == "" + [sep] + Join(rest, [sep]);
        [""] + rest
      else
        var parts := [[s[0]] + rest[0]] + rest[1..];
        assert parts[1..] == rest[1..];
        assert Join(parts, [sep]) == [s[0]] + Join(rest, [sep]);
        parts
  }

  /** The first piece of a split is the text before the first separator. */
  lemma {:induction false} SplitHead(a: string, sep: char, b: string)
    requires sep !in a
    ensures Split(a + [sep] + b, sep)[0] == a
    decreases |a|
  {
    var s := a + [sep] + b;
    if |a| == 0 {
      assert s[0] == sep;
    } else {
      assert s[0] == a[0];
      assert s[1..] == a[1..] + [sep] + b;
      SplitHead(a[1..], sep, b);
      assert [a[0]] + a[1..] == a;
    }
  }

  /** A string without the separator splits into itself alone. */
  lemma {:induction false} SplitWithoutSeparator(a: string, sep: char)
    requires sep !in a
    ensures Split(a, sep) == [a]
    decreases |a|
  {
    if |a| > 0 {
      SplitWithoutSeparator(a[1..], sep);
      assert [a[0]] + a[1..] == a;
    }
  }
}

=== FILE: relay.dfy ===
/** The handlers of bot.py's `AnonymousMessageBot` as pure transitions.
    The session is the pair of in-memory maps `user_states` and
    `pending_messages`; every handler takes the session, what its
    collaborators answer during the event (`Env`) and the event, and
    returns the new session with the list of outbound actions in the order
    the handler performs them. Database calls appear as actions too, so the
    order of saving and delivering can be stated. */
module Relay {
  import opened Common
  import PyStr
  import PyInt
  import LinkCodec

  /** The hard-coded owner allowed to run the admin commands. */
  const OwnerId: int := 1868394048

  /** The only value `user_states` ever holds. */
  const SendingMessage: string := "sending_message"

  datatype Session = Session(userStates: map<int, string>, pendingMessages: map<int, int>)

  const Initial: Session := Session(map[], map[])

  /** Both maps describe the same senders, every state is
      `sending_message`, and every target is a non-zero id other than its
      sender. */
  predicate Inv(s: Session) {
    && s.userStates.Keys == s.pendingMessages.Keys
    && (forall u :: u in s.userStates ==> s.userStates[u] == SendingMessage)
    && (forall u :: u in s.pendingMessages ==> s.pendingMessages[u] != 0 && s.pendingMessages[u] != u)
  }

  /** The sender starts a relay to `target`. */
  function Open(s: Session, sender: int, target: int): Session {
    Session(s.userStates[sender := SendingMessage], s.pendingMessages[sender := target])
  }

  /** The sender's entries are removed from both maps. */
  function Close(s: Session, sender: int): Session {
    Session(s.userStates - {sender}, s.pendingMessages - {sender})
  }

  /** Opening a relay to a valid recipient keeps the invariant. */
  lemma OpenKeepsInv(s: Session, sender: int, target: int)
    requires target != 0 && target != sender
    ensures Inv(s) ==> Inv(Open(s, sender, target))
  {
  }

  /** Closing a relay keeps the invariant. */
  lemma CloseKeepsInv(s: Session, sender: int)
    ensures Inv(s) ==> Inv(Close(s, sender))
  {
  }

  datatype Profile = Profile(username: Option<string>, firstName: Option<string>, lastName: Option<string>)

  datatype Action =
    | AddUser(uid: int, profile: Profile)            // DatabaseHandler.add_user
    | SaveMessage(fromUser: int, toUser: int, text: string)  // DatabaseHandler.save_message
    | Reply(text: string)                            // update.message.reply_text
    | SendTo(chat: int, text: string)                // context.bot.send_message

  datatype Step = Step(session: Session, actions: seq<Action>)

  /** What the collaborators answer while one event is handled. */
  datatype Env = Env(
    botUsername: string,
    md5Hex: string -> string,          // hashlib.md5(...).hexdigest()
    registered: set<int>,              // ids DatabaseHandler.get_user finds
    saveSucceeds: bool,                // what DatabaseHandler.save_message returns
    deliverySucceeds: bool,            // send_message to the recipient does not raise
    totalUsers: int,                   // DatabaseHandler.get_stats()['total_users']
    totalMessages: int,                // DatabaseHandler.get_stats()['total_messages']
    broadcastTargets: seq<(int, bool)>) // get_all_user_ids(), each with its delivery outcome

  datatype Event =
    | Start(sender: int, profile: Profile, args: seq<string>)
    | Text(sender: int, text: string)
    | NonText(sender: int)
    | NewLink(sender: int)
    | Stats(sender: int)
    | Broadcast(sender: int, args: seq<string>)
    | UnknownCommand(sender: int)

  // ---------------------------------------------------------------- texts

  const InvitedText: string :=
    "\U{1F517} You've been invited to send an anonymous message!\n\n"
    + "\U{1F4DD} Please type your message below (text only):\n\n"
    + "\U{26A0}\U{FE0F} Note: Your message will be sent anonymously."
  /** The mark every refusal and error reply starts with. */
  const Cross: string := "\U{274C} "

  const UnknownRecipientText: string :=
    Cross + "Invalid link. The user might not exist or hasn't used the bot yet."
  const InvalidLinkText: string :=
    Cross + "Invalid link or you can't send a message to yourself."
  const NotAuthorizedText: string := Cross + "You are not authorized to use this command."
  const UsageText: string := "\U{26A0}\U{FE0F} Usage: /broadcast Your message here."
  const BroadcastHeader: string := "\U{1F4E2} *Broadcast Message:*\n\n"
  const AnonymousHeader: string := "\U{1F4E8} **Anonymous Message:**\n\n"
  const SentText: string := "\U{2705} Message sent anonymously."
  const NotDeliveredText: string := Cross + "Could not deliver the message."
  const SaveFailedText: string := Cross + "Failed to save your message."
  const SomethingWrongText: string := Cross + "Something went wrong. Try using the link again."
  const NeedLinkText: string :=
    "\U{1F914} You need to use someone's invite link to send an anonymous message.\n"
    + "\U{1F4A1} Use /start to get your own link!"
  const OnlyTextText: string := Cross + "Only plain text messages are supported."
  const UnknownCommandText: string := Cross + "This command does not exist."

  function WelcomeText(link: string): string {
    "\U{1F3AD} Welcome to Anonymous Message Bot!\n\n"
    + ("\U{1F464} Your unique link:\n"
    + "`" + link + "`\n\n"
    + "\U{1F4E4} **How to use:**\n"
    + "1. Share your link with others\n"
    + "2. They can send you anonymous messages\n"
    + "3. You'll receive them here\n\n"
    + "\U{1F512} All messages are anonymous!")
  }

  function NewLinkText(link: string): string {
    "\U{1F517} Your new anonymous message link:\n" + "`" + link + "`"
  }

  function StatsText(users: int, messages: int): string {
    "\U{1F4CA} **Bot Statistics:**\n\n"
    + "\U{1F465} Total users: " + PyInt.Show(users) + "\n"
    + "\U{1F4AC} Total messages: " + PyInt.Show(messages)
  }

  const SummaryHead: string := "\U{2705} Broadcast sent!\n\U{1F4EC} Delivered: "

  function SummaryText(sent: int, failed: int): string {
    SummaryHead + (PyInt.Show(sent) + " | \U{274C} Failed: " + PyInt.Show(failed))
  }

  // ------------------------------------------------------- action counts

  function ReplyCount(acts: seq<Action>): nat
    decreases |acts|
  {
    if |acts| == 0 then 0 else (if acts[0].Reply? then 1 else 0) + ReplyCount(acts[1..])
  }

  function SendCount(acts: seq<Action>): nat
    decreases |acts|
  {
    if |acts| == 0 then 0 else (if acts[0].SendTo? then 1 else 0) + SendCount(acts[1..])
  }

  function SaveCount(acts: seq<Action>): nat
    decreases |acts|
  {
    if |acts| == 0 then 0 else (if acts[0].SaveMessage? then 1 else 0) + SaveCount(acts[1..])
  }

  /** The counts of a two-action list, one term per action. */
  lemma CountsOfPair(a: Action, b: Action)
    ensures ReplyCount([a, b]) == (if a.Reply? then 1 else 0) + (if b.Reply? then 1 else 0)
    ensures SendCount([a, b]) == (if a.SendTo? then 1 else 0) + (if b.SendTo? then 1 else 0)
    ensures SaveCount([a, b]) == (if a.SaveMessage? then 1 else 0) + (if b.SaveMessage? then 1 else 0)
  {
    var acts := [a, b];
    assert acts[1..] == [b] && [b][1..] == [];
    assert ReplyCount([b]) == (if b.Reply? then 1 else 0) + ReplyCount([]);
    assert SendCount([b]) == (if b.SendTo? then 1 else 0) + SendCount([]);
    assert SaveCount([b]) == (if b.SaveMessage? then 1 else 0) + SaveCount([]);
    assert ReplyCount(acts) == (if a.Reply? then 1 else 0) + ReplyCount(acts[1..]);
    assert SendCount(acts) == (if a.SendTo? then 1 else 0) + SendCount(acts[1..]);
    assert SaveCount(acts) == (if a.SaveMessage? then 1 else 0) + SaveCount(acts[1..]);
  }

  /** The counts of a three-action list, one term per action. */
  lemma CountsOfTriple(a: Action, b: Action, c: Action)
    ensures ReplyCount([a, b, c]) == (if a.Reply? then 1 else 0) + ReplyCount([b, c])
    ensures SendCount([a, b, c]) == (if a.SendTo? then 1 else 0) + SendCount([b, c])
    ensures SaveCount([a, b, c]) == (if a.SaveMessage? then 1 else 0) + SaveCount([b, c])
  {
    var acts := [a, b, c];
    assert acts[1..] == [b, c];
    assert ReplyCount(acts) == (if a.Reply? then 1 else 0) + ReplyCount(acts[1..]);
    assert SendCount(acts) == (if a.SendTo? then 1 else 0) + SendCount(acts[1..]);
    assert SaveCount(acts) == (if a.SaveMessage? then 1 else 0) + SaveCount(acts[1..]);
  }

  /** Every delivery to a recipient comes right after a save of the same
      text for the same recipient, and only when the save succeeded. */
  ghost predicate DeliveryAfterSave(acts: seq<Action>, env: Env, sender: int, text: string) {
    forall i :: 0 <= i < |acts| && acts[i].SendTo? ==>
      && env.saveSucceeds
      && i >= 1
      && acts[i - 1] == SaveMessage(sender, acts[i].chat, text)
      && acts[i].text == AnonymousHeader + text
  }

  // ------------------------------------------------------------- /start

  /** What `start_command` decides about its first argument: the id the
      link names, when it decodes to a truthy id other than the sender. */
  function LinkTarget(sender: int, arg: string): (t: Option<int>)
    ensures t.Some? ==> t.value != 0 && t.value != sender
    ensures t.Some? ==> LinkCodec.ExtractUserId(arg) == t
  {
    var r := LinkCodec.ExtractUserId(arg);
    if r.Some? && r.value != 0 && r.value != sender then r else None
  }

  /** `start_command`: registers the sender, then either opens a relay to
      the user the link names, or explains why not, or shows the sender's
      own link. It always replies exactly once and sends nothing to anyone
      else; the session changes only when the link is accepted. */
  function StartCommand(s: Session, env: Env, sender: int, profile: Profile, args: seq<string>): (r: Step)
    ensures |r.actions| == 2 && r.actions[0] == AddUser(sender, profile) && r.actions[1].Reply?
    ensures ReplyCount(r.actions) == 1 && SendCount(r.actions) == 0 && SaveCount(r.actions) == 0
    ensures r.session != s ==>
      && |args| > 0
      && LinkTarget(sender, args[0]).Some?
      && LinkTarget(sender, args[0]).value in env.registered
      && r.session == Open(s, sender, LinkTarget(sender, args[0]).value)
    ensures |args| > 0 && LinkTarget(sender, args[0]).Some? && LinkTarget(sender, args[0]).value in env.registered ==>
      r.session == Open(s, sender, LinkTarget(sender, args[0]).value)
    ensures |args| == 0 ==>
      r.actions[1] == Reply(WelcomeText(LinkCodec.InviteLink(env.botUsername, sender, env.md5Hex)))
    ensures |args| > 0 ==> (r.actions[1] ==
      Reply(if LinkTarget(sender, args[0]).None? then InvalidLinkText
            else if LinkTarget(sender, args[0]).value in env.registered then InvitedText
            else UnknownRecipientText))
    ensures Inv(s) ==> Inv(r.session)
  {
    var target := if |args| > 0 then LinkTarget(sender, args[0]) else None;
    var accepted := target.Some? && target.value in env.registered;
    var reply :=
      if |args| == 0 then WelcomeText(LinkCodec.InviteLink(env.botUsername, sender, env.md5Hex))
      else if target.None? then InvalidLinkText
      else if accepted then InvitedText
      else UnknownRecipientText;
    var acts := [AddUser(sender, profile), Reply(reply)];
    CountsOfPair(acts[0], acts[1]);
    if accepted then
      OpenKeepsInv(s, sender, target.value);
      Step(Open(s, sender, target.value), acts)
    else
      Step(s, acts)
  }

  // ------------------------------------------------------------- text

  /** `handle_message`: a sender with an open relay gets the text saved,
      delivered only after a successful save, one reply, and the relay
      closed whatever happened; anyone else gets one hint and nothing else
      happens. */
  function HandleMessage(s: Session, env: Env, sender: int, text: string): (r: Step)
    ensures ReplyCount(r.actions) == 1
    ensures SendCount(r.actions) <= 1
    ensures SaveCount(r.actions) <= 1
    ensures SaveCount(r.actions) == 1 <==>
      && sender in s.userStates && s.userStates[sender] == SendingMessage
      && sender in s.pendingMessages && s.pendingMessages[sender] != 0
    ensures SaveCount(r.actions) == 1 ==> r.actions[0] == SaveMessage(sender, s.pendingMessages[sender], text)
    ensures DeliveryAfterSave(r.actions, env, sender, text)
    ensures forall i :: 0 <= i < |r.actions| && r.actions[i].SendTo? ==>
      sender in s.pendingMessages && r.actions[i].chat == s.pendingMessages[sender]
    ensures SendCount(r.actions) == 1 <==> SaveCount(r.actions) == 1 && env.saveSucceeds
    ensures SaveCount(r.actions) == 1 ==> r.session == Close(s, sender)
    ensures SaveCount(r.actions) == 0 ==> r.session == s && |r.actions| == 1
    ensures SaveCount(r.actions) == 1 ==> (r.actions[|r.actions| - 1] ==
      Reply(if !env.saveSucceeds then SaveFailedText else if env.deliverySucceeds then SentText else NotDeliveredText))
    ensures SaveCount(r.actions) == 0 ==>
      r.actions == [Reply(if sender in s.userStates && s.userStates[sender] == SendingMessage
                          then SomethingWrongText else NeedLinkText)]
    ensures Inv(s) ==> Inv(r.session)
  {
    if sender in s.userStates && s.userStates[sender] == SendingMessage then
      var receiver := Get(s.pendingMessages, sender);
      if receiver.Some? && receiver.value != 0 then
        var target := receiver.value;
        var save := SaveMessage(sender, target, text);
        var acts :=
          if env.saveSucceeds then
            [save, SendTo(target, AnonymousHeader + text),
             Reply(if env.deliverySucceeds then SentText else NotDeliveredText)]
          else
            [save, Reply(SaveFailedText)];
        CloseKeepsInv(s, sender);
        if env.saveSucceeds then
          CountsOfTriple(acts[0], acts[1], acts[2]);
          CountsOfPair(acts[1], acts[2]);
          Step(Close(s, sender), acts)
        else
          CountsOfPair(acts[0], acts[1]);
          Step(Close(s, sender), acts)
      else
        Step(s, [Reply(SomethingWrongText)])
    else
      Step(s, [Reply(NeedLinkText)])
  }

  // ---------------------------------------------------------- admin

  /** The refusal every admin command gives a non-owner. */
  function Refuse(s: Session): Step {
    Step(s, [Reply(NotAuthorizedText)])
  }

  /** `newlink_command`: the owner gets their link, anyone else a refusal. */
  function NewLinkCommand(s: Session, env: Env, sender: int): (r: Step)
    ensures r.session == s && |r.actions| == 1 && r.actions[0].Reply?
    ensures r == Refuse(s) <==> sender != OwnerId
  {
    if sender != OwnerId then Refuse(s)
    else Step(s, [Reply(NewLinkText(LinkCodec.InviteLink(env.botUsername, sender, env.md5Hex)))])
  }

  /** `stats_command`: the owner gets the counts, anyone else a refusal. */
  function StatsCommand(s: Session, env: Env, sender: int): (r: Step)
    ensures r.session == s && |r.actions| == 1 && r.actions[0].Reply?
    ensures r == Refuse(s) <==> sender != OwnerId
  {
    if sender != OwnerId then Refuse(s)
    else Step(s, [Reply(StatsText(env.totalUsers, env.totalMessages))])
  }

  /** How many broadcast sends went through. */
  function Delivered(targets: seq<(int, bool)>): (n: nat)
    ensures n <= |targets|
    decreases |targets|
  {
    if |targets| == 0 then 0
    else Delivered(targets[..|targets| - 1]) + (if targets[|targets| - 1].1 then 1 else 0)
  }

  /** One send per target, in order. */
  function BroadcastSends(targets: seq<(int, bool)>, msg: string): (sends: seq<Action>)
    ensures |sends| == |targets|
    ensures forall i :: 0 <= i < |sends| ==> sends[i] == SendTo(targets[i].0, msg)
  {
    seq(|targets|, i requires 0 <= i < |targets| => SendTo(targets[i].0, msg))
  }

  /** The loop of `broadcast_command`: one send attempt per id, counting
      successes in `sent` and failures in `failed`. */
  method BroadcastLoop(targets: seq<(int, bool)>, msg: string) returns (sent: nat, failed: nat, sends: seq<Action>)
    ensures sent + failed == |targets|
    ensures sent == Delivered(targets)
    ensures |sends| == |targets|
    ensures forall i :: 0 <= i < |sends| ==> sends[i] == SendTo(targets[i].0, msg)
  {
    sent, failed, sends := 0, 0, [];
    var k := 0;
    while k < |targets|
      invariant 0 <= k <= |targets|
      invariant sent + failed == k
      invariant sent == Delivered(targets[..k])
      invariant sends == BroadcastSends(targets[..k], msg)
    {
      assert targets[..k + 1][..k] == targets[..k];
      sends := sends + [SendTo(targets[k].0, msg)];
      if targets[k].1 {
        sent := sent + 1;
      } else {
        failed := failed + 1;
      }
      k := k + 1;
    }
    assert targets[..k] == targets;
  }

  /** `broadcast_command`: a non-owner is refused, an empty argument list
      gets the usage line, otherwise every listed id gets one send attempt
      and the owner one summary whose two counts add up to the number of
      ids. */
  function BroadcastCommand(s: Session, env: Env, sender: int, args: seq<string>): (r: Step)
    ensures r.session == s
    ensures sender != OwnerId ==> r == Refuse(s)
    ensures sender == OwnerId && |args| == 0 ==> r.actions == [Reply(UsageText)]
    ensures sender == OwnerId && |args| > 0 ==>
      var msg := BroadcastHeader + PyStr.Join(args, " ");
      var sent := Delivered(env.broadcastTargets);
      && |r.actions| == |env.broadcastTargets| + 1
      && (forall i :: 0 <= i < |env.broadcastTargets| ==> r.actions[i] == SendTo(env.broadcastTargets[i].0, msg))
      && r.actions[|env.broadcastTargets|] == Reply(SummaryText(sent, |env.broadcastTargets| - sent))
  {
    if sender != OwnerId then Refuse(s)
    else if |args| == 0 then Step(s, [Reply(UsageText)])
    else
      var msg := BroadcastHeader + PyStr.Join(args, " ");
      var sent := Delivered(env.broadcastTargets);
      var summary := Reply(SummaryText(sent, |env.broadcastTargets| - sent));
      Snoc(BroadcastSends(env.broadcastTargets, msg), summary);
      Step(s, BroadcastSends(env.broadcastTargets, msg) + [summary])
  }

  /** Appending one element keeps the prefix and puts it last. */
  lemma Snoc<T>(xs: seq<T>, x: T)
    ensures |xs + [x]| == |xs| + 1 && (xs + [x])[|xs|] == x
    ensures forall i :: 0 <= i < |xs| ==> (xs + [x])[i] == xs[i]
  {
  }

  // ---------------------------------------------------------- dispatch

  /** The handler table of `run`: the commands by name, plain text to
      `handle_message`, other non-command messages to `handle_non_text`,
      and any other command to `unknown_command`. */
  function Handle(s: Session, env: Env, ev: Event): (r: Step)
    ensures ReplyCount(r.actions) == 1 || ev.Broadcast?
    ensures Inv(s) ==> Inv(r.session)
  {
    match ev
    case Start(u, p, args) => StartCommand(s, env, u, p, args)
    case Text(u, text) => HandleMessage(s, env, u, text)
    case NonText(u) => Step(s, [Reply(OnlyTextText)])
    case NewLink(u) => NewLinkCommand(s, env, u)
    case Stats(u) => StatsCommand(s, env, u)
    case Broadcast(u, args) => BroadcastCommand(s, env, u, args)
    case UnknownCommand(u) => Step(s, [Reply(UnknownCommandText)])
  }

  // ---------------------------------------------------------- properties

  /** Under the invariant the "Something went wrong" branch of
      `handle_message` cannot be taken. */
  lemma SomethingWrongUnreachable(s: Session, env: Env, ev: Event)
    requires Inv(s)
    ensures Reply(SomethingWrongText) !in Handle(s, env, ev).actions
  {
    match ev
    case Start(u, p, args) =>
      StartNeverSaysSomethingWrong(s, env, u, p, args);
    case Text(u, text) =>
      TextNeverSaysSomethingWrong(s, env, u, text);
    case NonText(u) =>
    case NewLink(u) =>
      AdminRepliesNeverSaySomethingWrong(s, env, u);
    case Stats(u) =>
      AdminRepliesNeverSaySomethingWrong(s, env, u);
    case Broadcast(u, args) =>
      BroadcastNeverSaysSomethingWrong(s, env, u, args);
    case UnknownCommand(u) =>
  }

  /** None of the four `/start` replies is the "Something went wrong" one. */
  lemma StartNeverSaysSomethingWrong(s: Session, env: Env, sender: int, profile: Profile, args: seq<string>)
    ensures Reply(SomethingWrongText) !in StartCommand(s, env, sender, profile, args).actions
  {
    var r := StartCommand(s, env, sender, profile, args);
    StartRepliesDiffer(LinkCodec.InviteLink(env.botUsername, sender, env.md5Hex));
    NotInPair(r.actions, Reply(SomethingWrongText));
  }

  /** The four `/start` replies all differ from the fallback reply. */
  lemma StartRepliesDiffer(link: string)
    ensures WelcomeText(link) != SomethingWrongText
    ensures InvitedText != SomethingWrongText
    ensures InvalidLinkText != SomethingWrongText
    ensures UnknownRecipientText != SomethingWrongText
  {
    assert SomethingWrongText[0] == '\U{274C}';
    assert WelcomeText(link)[0] == '\U{1F3AD}';
  }

  /** Neither element of a pair is `x`, so `x` is not in it. */
  lemma NotInPair<T>(xs: seq<T>, x: T)
    requires |xs| == 2 && xs[0] != x && xs[1] != x
    ensures x !in xs
  {
  }

  /** Under the invariant a sender in the sending state has a recipient, so
      the text is relayed and the fallback reply is never given. */
  lemma TextNeverSaysSomethingWrong(s: Session, env: Env, sender: int, text: string)
    requires Inv(s)
    ensures Reply(SomethingWrongText) !in HandleMessage(s, env, sender, text).actions
  {
    if sender in s.userStates {
      assert sender in s.pendingMessages;
    }
  }

  /** The link and statistics replies start with their own emoji. */
  lemma AdminRepliesNeverSaySomethingWrong(s: Session, env: Env, sender: int)
    ensures Reply(SomethingWrongText) !in NewLinkCommand(s, env, sender).actions
    ensures Reply(SomethingWrongText) !in StatsCommand(s, env, sender).actions
  {
    assert SomethingWrongText[0] == '\U{274C}';
    if sender == OwnerId {
      AdminTextsDiffer(LinkCodec.InviteLink(env.botUsername, sender, env.md5Hex), env.totalUsers, env.totalMessages);
    }
  }

  /** The link and statistics texts differ from the fallback reply. */
  lemma AdminTextsDiffer(link: string, users: int, messages: int)
    ensures NewLinkText(link) != SomethingWrongText
    ensures StatsText(users, messages) != SomethingWrongText
  {
    assert SomethingWrongText[0] == '\U{274C}';
    assert NewLinkText(link)[0] == '\U{1F517}';
    assert StatsText(users, messages)[0] == '\U{1F4CA}';
  }

  /** The broadcast summary starts with a check mark, not a cross. */
  lemma BroadcastNeverSaysSomethingWrong(s: Session, env: Env, sender: int, args: seq<string>)
    ensures Reply(SomethingWrongText) !in BroadcastCommand(s, env, sender, args).actions
  {
    if sender == OwnerId && |args| > 0 {
      var r := BroadcastCommand(s, env, sender, args);
      var n := |env.broadcastTargets|;
      var sent := Delivered(env.broadcastTargets);
      assert SummaryText(sent, n - sent) != SomethingWrongText by {
        assert SummaryText(sent, n - sent)[0] == SummaryHead[0];
        assert SomethingWrongText[0] == '\U{274C}';
      }
      forall i | 0 <= i < |r.actions|
        ensures r.actions[i] != Reply(SomethingWrongText)
      {
      }
    }
  }

  /** Opening the link of a registered user other than oneself starts a
      relay to that user: the codec round trip seen through the handler. */
  lemma OpeningInviteLinkStartsRelay(s: Session, env: Env, sender: int, profile: Profile, owner: int)
    requires owner in env.registered && owner != 0 && owner != sender
    ensures var r := Handle(s, env, Start(sender, profile, [LinkCodec.StartParam(owner, env.md5Hex)]));
      && r.session == Open(s, sender, owner)
      && r.actions == [AddUser(sender, profile), Reply(InvitedText)]
  {
    LinkCodec.ExtractInvertsStartParam(owner, env.md5Hex);
  }

  /** Opening one's own link never starts a relay and leaves the session
      as it was. */
  lemma OwnLinkRejected(s: Session, env: Env, sender: int, profile: Profile)
    ensures var r := Handle(s, env, Start(sender, profile, [LinkCodec.StartParam(sender, env.md5Hex)]));
      && r.session == s
      && r.actions == [AddUser(sender, profile), Reply(InvalidLinkText)]
  {
    LinkCodec.ExtractInvertsStartParam(sender, env.md5Hex);
  }

  /** A relay is single-shot: after one text, whatever the save and the
      delivery did, the next text gets the hint and is neither saved nor
      delivered. */
  lemma SingleShot(s: Session, env1: Env, env2: Env, sender: int, first: string, second: string)
    requires Inv(s) && sender in s.pendingMessages
    ensures var r1 := Handle(s, env1, Text(sender, first));
      && r1.session == Close(s, sender)
      && SaveCount(r1.actions) == 1
      && Handle(r1.session, env2, Text(sender, second)) == Step(r1.session, [Reply(NeedLinkText)])
  {
    assert sender in s.userStates;
  }

  /** Texts from a sender without a relay and non-text messages get one
      reply each; nothing is saved or sent and the session is unchanged. */
  lemma StrayMessagesAreInert(s: Session, env: Env, sender: int, text: string)
    requires sender !in s.userStates
    ensures Handle(s, env, Text(sender, text)) == Step(s, [Reply(NeedLinkText)])
    ensures Handle(s, env, NonText(sender)) == Step(s, [Reply(OnlyTextText)])
  {
  }

  /** A non-owner running an admin command gets exactly one refusal and
      nothing else happens. */
  lemma AdminCommandsRefuseOthers(s: Session, env: Env, sender: int, args: seq<string>)
    requires sender != OwnerId
    ensures Handle(s, env, NewLink(sender)) == Refuse(s)
    ensures Handle(s, env, Stats(sender)) == Refuse(s)
    ensures Handle(s, env, Broadcast(sender, args)) == Refuse(s)
  {
  }

  /** The walk-through of one relay: user 42 is registered, user 99 opens
      42's link, sends "hello", the save and the delivery succeed. */
  lemma RelayScenario(env: Env, profile: Profile)
    requires 42 in env.registered && env.saveSucceeds && env.deliverySucceeds
    ensures var r1 := Handle(Initial, env, Start(99, profile, [LinkCodec.StartParam(42, env.md5Hex)]));
      && r1.session == Session(map[99 := SendingMessage], map[99 := 42])
      && Handle(r1.session, env, Text(99, "hello")) ==
         Step(Initial, [SaveMessage(99, 42, "hello"), SendTo(42, AnonymousHeader + "hello"), Reply(SentText)])
  {
    OpeningInviteLinkStartsRelay(Initial, env, 99, profile, 42);
    var s1 := Open(Initial, 99, 42);
    RelayedText(s1, env, 99, "hello");
    assert Close(s1, 99) == Initial;
  }

  /** The relay branch of `handle_message` in full: save, then on success
      forward with the anonymous header and confirm, and close the relay. */
  lemma RelayedText(s: Session, env: Env, sender: int, text: string)
    requires sender in s.userStates && s.userStates[sender] == SendingMessage
    requires sender in s.pendingMessages && s.pendingMessages[sender] != 0
    ensures var target := s.pendingMessages[sender];
      Handle(s, env, Text(sender, text)) == Step(Close(s, sender),
        if env.saveSucceeds then
          [SaveMessage(sender, target, text), SendTo(target, AnonymousHeader + text),
           Reply(if env.deliverySucceeds then SentText else NotDeliveredText)]
        else
          [SaveMessage(sender, target, text), Reply(SaveFailedText)])
  {
  }
}

=== FILE: store.dfy ===
/** The SQLite store of db.py. Each table is a value: `users` and
    `user_settings` are maps keyed by `user_id`, `blocked_users` a map keyed
    by the (blocker, blocked) pair its UNIQUE constraint makes a key,
    `user_analytics` a map keyed by (user, day), and `messages` and
    `reports` sequences in insertion (AUTOINCREMENT) order. Timestamps are
    Unix seconds (UTC); `now` stands for `CURRENT_TIMESTAMP`. */
module Store {
  import opened Common
  import Ordering

  const SecondsPerHour: int := 3600
  const SecondsPerDay: int := 86400

  /** A value of a column the caller may fill with anything. */
  datatype SqlValue = Null | Int(i: int) | Text(s: string)

  /** Python's `bool(v)` of a value read back from SQLite. */
  predicate Truthy(v: SqlValue) {
    match v
    case Null => false
    case Int(i) => i != 0
    case Text(s) => |s| > 0
  }

  datatype UserRow = UserRow(
    username: Option<string>,
    firstName: Option<string>,
    lastName: Option<string>,
    languageCode: Option<string>,
    isBot: bool,
    isPremium: bool,
    joinDate: int,
    lastActive: int,
    totalSent: int,
    totalReceived: int,
    isBlocked: bool,
    blockReason: Option<string>)

  datatype MessageRow = MessageRow(
    id: int,
    fromUser: int,
    toUser: int,
    content: string,
    messageType: string,
    timestamp: int,
    isRead: bool,
    readAt: Option<int>,
    isReported: bool,
    rating: Option<int>)

  datatype AnalyticsRow = AnalyticsRow(messagesSent: int, messagesReceived: int, activeTimeSeconds: int)

  datatype BlockRow = BlockRow(blockedAt: int, reason: Option<string>)

  datatype ReportRow = ReportRow(
    id: int,
    reporter: int,
    messageId: int,
    reportedUser: int,
    reason: string,
    reportedAt: int,
    status: string)

  datatype SettingsRow = SettingsRow(
    notificationsEnabled: SqlValue,
    allowMedia: SqlValue,
    showReadReceipts: SqlValue,
    language: SqlValue)

  datatype Db = Db(
    users: map<int, UserRow>,
    messages: seq<MessageRow>,
    lastMessageId: int,
    analytics: map<(int, int), AnalyticsRow>,
    blocks: map<(int, int), BlockRow>,
    reports: seq<ReportRow>,
    lastReportId: int,
    settings: map<int, SettingsRow>)

  const Empty: Db := Db(map[], [], 0, map[], map[], [], 0, map[])

  /** The row `INSERT INTO user_settings (user_id)` creates: the schema's
      column defaults. */
  const SchemaDefaultSettings: SettingsRow := SettingsRow(Int(1), Int(1), Int(0), Text("en"))

  /** `DATE('now')` as a day number. */
  function Day(t: int): int {
    t / SecondsPerDay
  }

  /** Message ids are positive, distinct, and below the AUTOINCREMENT
      counter. */
  predicate MessageIdsFresh(db: Db) {
    && 0 <= db.lastMessageId
    && (forall i :: 0 <= i < |db.messages| ==> 0 < db.messages[i].id <= db.lastMessageId)
    && (forall i, j :: 0 <= i < j < |db.messages| ==> db.messages[i].id != db.messages[j].id)
  }

  /** Report ids are positive, distinct, and below their AUTOINCREMENT
      counter. */
  predicate ReportIdsFresh(db: Db) {
    && 0 <= db.lastReportId
    && (forall i :: 0 <= i < |db.reports| ==> 0 < db.reports[i].id <= db.lastReportId)
    && (forall i, j :: 0 <= i < j < |db.reports| ==> db.reports[i].id != db.reports[j].id)
  }

  /** The ids the messages carry. */
  function Ids(ms: seq<MessageRow>): set<int>
    decreases |ms|
  {
    if |ms| == 0 then {} else {ms[0].id} + Ids(ms[1..])
  }

  /** The ids 1..n. */
  function Upto(n: int): set<int>
    decreases n
  {
    if n <= 0 then {} else Upto(n - 1) + {n}
  }

  lemma {:induction false} InUpto(n: int, x: int)
    ensures x in Upto(n) <==> 0 < x <= n
    decreases n
  {
    if n > 0 {
      InUpto(n - 1, x);
    }
  }

  lemma {:induction false} UptoCount(n: nat)
    ensures |Upto(n)| == n
  {
    if n > 0 {
      UptoCount(n - 1);
      InUpto(n - 1, n);
    }
  }

  lemma {:induction false} IdsWithin(ms: seq<MessageRow>, n: int)
    requires forall i :: 0 <= i < |ms| ==> 0 < ms[i].id <= n
    ensures Ids(ms) <= Upto(n)
    decreases |ms|
  {
    if |ms| > 0 {
      IdsWithin(ms[1..], n);
      InUpto(n, ms[0].id);
    }
  }

  lemma {:induction false} IdsExclude(ms: seq<MessageRow>, y: int)
    requires forall i :: 0 <= i < |ms| ==> ms[i].id != y
    ensures y !in Ids(ms)
    decreases |ms|
  {
    if |ms| > 0 {
      IdsExclude(ms[1..], y);
    }
  }

  /** Distinct ids: one id per message. */
  lemma {:induction false} IdsCount(ms: seq<MessageRow>)
    requires forall i, j :: 0 <= i < j < |ms| ==> ms[i].id != ms[j].id
    ensures |Ids(ms)| == |ms|
    decreases |ms|
  {
    if |ms| > 0 {
      IdsCount(ms[1..]);
      IdsExclude(ms[1..], ms[0].id);
    }
  }

  /** Fresh message ids are distinct and lie in 1..lastMessageId, so there
      are at most that many messages. */
  lemma MessageCountBelowLastId(db: Db)
    ensures MessageIdsFresh(db) ==> |db.messages| <= db.lastMessageId
  {
    if MessageIdsFresh(db) {
      IdsWithin(db.messages, db.lastMessageId);
      IdsCount(db.messages);
      UptoCount(db.lastMessageId);
      SubsetCount(Ids(db.messages), Upto(db.lastMessageId));
    }
  }

  // ---------------------------------------------------------------- users

  /** `user_exists`: the user has a row, which is exactly when
      `get_user_profile` finds one; every user on the broadcast list
      exists. */
  function UserExists(db: Db, uid: int): (b: bool)
    ensures b <==> GetUserProfile(db, uid).Some?
    ensures uid in ListedIds(db) ==> b
  {
    uid in db.users
  }

  /** `add_user`: an upsert that keeps an existing user's join date, bot
      flag, counters and admin block, refreshes the profile fields, and
      gives a new user a default settings row. A failed transaction rolls
      back (`committed` is false). */
  function AddUser(
    db: Db, uid: int, username: Option<string>, firstName: Option<string>,
    lastName: Option<string>, languageCode: Option<string>, isBot: bool,
    isPremium: bool, now: int, committed: bool): (db': Db)
    ensures !committed ==> db' == db
    ensures committed ==> UserExists(db', uid)
    ensures committed ==> db'.users.Keys == db.users.Keys + {uid}
    ensures committed ==>
      && db'.users[uid].username == username
      && db'.users[uid].firstName == firstName
      && db'.users[uid].lastName == lastName
      && db'.users[uid].languageCode == languageCode
      && db'.users[uid].isPremium == isPremium
      && db'.users[uid].lastActive == now
    ensures committed && uid in db.users ==>
      && db'.users[uid].joinDate == db.users[uid].joinDate
      && db'.users[uid].isBot == db.users[uid].isBot
      && db'.users[uid].totalSent == db.users[uid].totalSent
      && db'.users[uid].totalReceived == db.users[uid].totalReceived
      && db'.users[uid].isBlocked == db.users[uid].isBlocked
      && db'.users[uid].blockReason == db.users[uid].blockReason
    ensures committed && uid !in db.users ==>
      && db'.users[uid].joinDate == now
      && db'.users[uid].isBot == isBot
      && db'.users[uid].totalSent == 0
      && db'.users[uid].totalReceived == 0
      && !db'.users[uid].isBlocked
      && db'.users[uid].blockReason == None
    ensures forall v :: v != uid ==> Get(db'.users, v) == Get(db.users, v)
    ensures uid in db.settings ==> db'.settings == db.settings
    ensures committed && uid !in db.settings ==> db'.settings == db.settings[uid := SchemaDefaultSettings]
    ensures db'.(users := db.users, settings := db.settings) == db
  {
    if !committed then db
    else
      var row :=
        if uid in db.users then
          db.users[uid].(username := username, firstName := firstName, lastName := lastName,
                         languageCode := languageCode, isPremium := isPremium, lastActive := now)
        else
          UserRow(username, firstName, lastName, languageCode, isBot, isPremium,
                  now, now, 0, 0, false, None);
      var settings := if uid in db.settings then db.settings else db.settings[uid := SchemaDefaultSettings];
      db.(users := db.users[uid := row], settings := settings)
  }

  /** `update_user_activity`: refreshes `last_active` of a known user. */
  function UpdateUserActivity(db: Db, uid: int, now: int): (db': Db)
    ensures uid in db.users ==> db'.users == db.users[uid := db.users[uid].(lastActive := now)]
    ensures uid !in db.users ==> db' == db
    ensures db'.(users := db.users) == db
  {
    if uid in db.users then db.(users := db.users[uid := db.users[uid].(lastActive := now)]) else db
  }

  // ----------------------------------------------------- admin blocking

  /** `is_user_blocked_by_admin`: the row's flag; an unknown user is not
      blocked. */
  function IsUserBlockedByAdmin(db: Db, uid: int): (r: bool)
    ensures r ==> UserExists(db, uid)
  {
    uid in db.users && db.users[uid].isBlocked
  }

  /** `block_user_by_admin`: sets the flag and the reason of a known user;
      no effect on an unknown one. */
  function BlockUserByAdmin(db: Db, uid: int, reason: Option<string>): (db': Db)
    ensures IsUserBlockedByAdmin(db', uid) <==> UserExists(db, uid)
    ensures uid in db.users ==> uid in db'.users && db'.users[uid] == db.users[uid].(isBlocked := true, blockReason := reason)
    ensures uid !in db.users ==> db' == db
    ensures forall v :: v != uid ==> Get(db'.users, v) == Get(db.users, v)
    ensures db'.users.Keys == db.users.Keys
    ensures db'.(users := db.users) == db
  {
    if uid in db.users then
      db.(users := db.users[uid := db.users[uid].(isBlocked := true, blockReason := reason)])
    else db
  }

  /** `unblock_user_by_admin`: clears the flag and the reason of a known
      user; no effect on an unknown one. */
  function UnblockUserByAdmin(db: Db, uid: int): (db': Db)
    ensures !IsUserBlockedByAdmin(db', uid)
    ensures uid in db.users ==> uid in db'.users && db'.users[uid] == db.users[uid].(isBlocked := false, blockReason := None)
    ensures uid !in db.users ==> db' == db
    ensures forall v :: v != uid ==> Get(db'.users, v) == Get(db.users, v)
    ensures db'.users.Keys == db.users.Keys
    ensures db'.(users := db.users) == db
  {
    if uid in db.users then
      db.(users := db.users[uid := db.users[uid].(isBlocked := false, blockReason := None)])
    else db
  }

  /** Unblocking undoes blocking: the row gets back its state before the
      block, up to a reason it may have carried. */
  lemma AdminUnblockUndoesBlock(db: Db, uid: int, reason: Option<string>)
    requires !IsUserBlockedByAdmin(db, uid)
    requires uid in db.users ==> db.users[uid].blockReason == None
    ensures UnblockUserByAdmin(BlockUserByAdmin(db, uid, reason), uid) == db
  {
    if uid in db.users {
      assert db.users[uid := db.users[uid]] == db.users;
    }
  }

  // ------------------------------------------------------ user blocking

  /** `is_blocked(blocker, blocked)`: a row exists for the ordered pair,
      which is exactly when `unblock_user` on the pair has something to
      delete. */
  function IsBlocked(db: Db, blocker: int, blocked: int): (b: bool)
    ensures b <==> UnblockUser(db, blocker, blocked) != db
  {
    assert (blocker, blocked) !in db.blocks ==> db.blocks - {(blocker, blocked)} == db.blocks;
    (blocker, blocked) in db.blocks
  }

  /** `block_user`: `INSERT OR REPLACE` keyed by the UNIQUE pair, so a
      second block replaces the reason and the time; every other pair is
      untouched. */
  function BlockUser(db: Db, blocker: int, blocked: int, reason: Option<string>, now: int): (db': Db)
    ensures IsBlocked(db', blocker, blocked)
    ensures db'.blocks[(blocker, blocked)] == BlockRow(now, reason)
    ensures forall a, b :: (a, b) != (blocker, blocked) ==> Get(db'.blocks, (a, b)) == Get(db.blocks, (a, b))
    ensures db'.(blocks := db.blocks) == db
  {
    db.(blocks := db.blocks[(blocker, blocked) := BlockRow(now, reason)])
  }

  /** `unblock_user`: deletes the pair's row; every other pair is
      untouched. */
  function UnblockUser(db: Db, blocker: int, blocked: int): (db': Db)
    ensures (blocker, blocked) !in db'.blocks
    ensures forall a, b :: (a, b) != (blocker, blocked) ==> Get(db'.blocks, (a, b)) == Get(db.blocks, (a, b))
    ensures db'.(blocks := db.blocks) == db
  {
    db.(blocks := db.blocks - {(blocker, blocked)})
  }

  /** Blocking is directional: `a` blocking `b` does not make `b` block
      `a`, and neither block nor unblock of one direction changes the
      other. */
  lemma BlockIsDirectional(db: Db, a: int, b: int, reason: Option<string>, now: int)
    requires a != b
    ensures IsBlocked(BlockUser(db, a, b, reason, now), b, a) == IsBlocked(db, b, a)
    ensures IsBlocked(UnblockUser(db, a, b), b, a) == IsBlocked(db, b, a)
    ensures !IsBlocked(BlockUser(Empty, a, b, reason, now), b, a)
  {
    assert Get(BlockUser(db, a, b, reason, now).blocks, (b, a)) == Get(db.blocks, (b, a));
    assert Get(UnblockUser(db, a, b).blocks, (b, a)) == Get(db.blocks, (b, a));
  }

  /** Blocking a pair that was not blocked, then unblocking it, restores
      the store. */
  lemma UnblockUndoesBlock(db: Db, a: int, b: int, reason: Option<string>, now: int)
    requires !IsBlocked(db, a, b)
    ensures UnblockUser(BlockUser(db, a, b, reason, now), a, b) == db
  {
    assert db.blocks[(a, b) := BlockRow(now, reason)] - {(a, b)} == db.blocks;
  }

  /** Re-blocking keeps one row for the pair, carrying the latest reason. */
  lemma ReblockReplacesReason(db: Db, a: int, b: int, r1: Option<string>, t1: int, r2: Option<string>, t2: int)
    ensures BlockUser(BlockUser(db, a, b, r1, t1), a, b, r2, t2) == BlockUser(db, a, b, r2, t2)
    ensures BlockUser(BlockUser(db, a, b, r1, t1), a, b, r2, t2).blocks.Keys == db.blocks.Keys + {(a, b)}
  {
  }

  /** One write to the `blocked_users` table. */
  datatype BlockWrite =
    | Block(blocker: int, blocked: int, reason: Option<string>, now: int)
    | Unblock(blocker: int, blocked: int)

  /** The store after the writes, oldest first. */
  function ApplyBlockWrites(db: Db, ws: seq<BlockWrite>): Db
    decreases |ws|
  {
    if |ws| == 0 then db
    else
      var prior := ApplyBlockWrites(db, ws[..|ws| - 1]);
      match ws[|ws| - 1]
      case Block(a, b, reason, now) => BlockUser(prior, a, b, reason, now)
      case Unblock(a, b) => UnblockUser(prior, a, b)
  }

  /** Whether the latest write to the ordered pair `(a, b)` was a block;
      `None` when no write touched the pair. */
  function LastWriteBlocks(ws: seq<BlockWrite>, a: int, b: int): Option<bool>
    decreases |ws|
  {
    if |ws| == 0 then None
    else if ws[|ws| - 1].blocker == a && ws[|ws| - 1].blocked == b then Some(ws[|ws| - 1].Block?)
    else LastWriteBlocks(ws[..|ws| - 1], a, b)
  }

  /** After any sequence of blocks and unblocks, `is_blocked` reports the
      latest write to the pair, and what it reported before when no write
      touched the pair. */
  lemma {:induction false} BlockedFollowsLastWrite(db: Db, ws: seq<BlockWrite>, a: int, b: int)
    ensures IsBlocked(ApplyBlockWrites(db, ws), a, b) ==
      match LastWriteBlocks(ws, a, b)
      case None => IsBlocked(db, a, b)
      case Some(blocks) => blocks
    decreases |ws|
  {
    if |ws| > 0 {
      BlockedFollowsLastWrite(db, ws[..|ws| - 1], a, b);
      var prior := ApplyBlockWrites(db, ws[..|ws| - 1]);
      var w := ws[|ws| - 1];
      if w.blocker != a || w.blocked != b {
        assert Get(ApplyBlockWrites(db, ws).blocks, (a, b)) == Get(prior.blocks, (a, b));
      }
    }
  }

  // ------------------------------------------------------------ messages

  /** One `INSERT ... ON CONFLICT(user_id, date) DO UPDATE` on
      `user_analytics`, counting a sent or a received message. */
  function BumpAnalytics(an: map<(int, int), AnalyticsRow>, key: (int, int), sent: bool): (an': map<(int, int), AnalyticsRow>)
    ensures an'.Keys == an.Keys + {key}
    ensures sent && key in an ==> an'[key] == an[key].(messagesSent := an[key].messagesSent + 1)
    ensures !sent && key in an ==> an'[key] == an[key].(messagesReceived := an[key].messagesReceived + 1)
    ensures key !in an ==> an'[key] == (if sent then AnalyticsRow(1, 0, 0) else AnalyticsRow(0, 1, 0))
    ensures forall k :: k != key && k in an ==> an'[k] == an[k]
  {
    if key in an then
      var row := an[key];
      an[key := if sent then row.(messagesSent := row.messagesSent + 1)
                else row.(messagesReceived := row.messagesReceived + 1)]
    else
      an[key := if sent then AnalyticsRow(1, 0, 0) else AnalyticsRow(0, 1, 0)]
  }

  /** How many messages a user's counters gain from one message. */
  function Bump(u: int, party: int): int {
    if u == party then 1 else 0
  }

  /** The two `UPDATE users` statements of `add_message`: the sender's
      sent counter and the recipient's received counter grow by one; an id
      without a row matches nothing. */
  function BumpCounters(users: map<int, UserRow>, fromUser: int, toUser: int): (users': map<int, UserRow>)
    ensures users'.Keys == users.Keys
    ensures forall u :: u in users ==>
      users'[u] == users[u].(totalSent := users[u].totalSent + Bump(u, fromUser),
                             totalReceived := users[u].totalReceived + Bump(u, toUser))
  {
    var users1 :=
      if fromUser in users then users[fromUser := users[fromUser].(totalSent := users[fromUser].totalSent + 1)]
      else users;
    if toUser in users1 then users1[toUser := users1[toUser].(totalReceived := users1[toUser].totalReceived + 1)]
    else users1
  }

  /** `add_message`: appends one unread, unreported message with the next
      AUTOINCREMENT id, adds one to the sender's sent counter and one to
      the recipient's received counter (counters of unknown users stay
      absent), and bumps the day's analytics. All five statements commit
      together or roll back together. */
  function AddMessage(
    db: Db, fromUser: int, toUser: int, content: string, messageType: string,
    now: int, committed: bool): (db': Db)
    ensures !committed ==> db' == db
    ensures committed ==> |db'.messages| == |db.messages| + 1
    ensures committed ==> db'.messages[..|db.messages|] == db.messages
    ensures committed ==> (db'.messages[|db.messages|] ==
      MessageRow(db.lastMessageId + 1, fromUser, toUser, content, messageType, now, false, None, false, None))
    ensures committed ==> db'.lastMessageId == db.lastMessageId + 1
    ensures committed ==> (db'.analytics ==
      BumpAnalytics(BumpAnalytics(db.analytics, (fromUser, Day(now)), true), (toUser, Day(now)), false))
    ensures committed ==> db'.users.Keys == db.users.Keys
    ensures committed ==> forall u :: u in db.users ==>
      db'.users[u] == db.users[u].(totalSent := db.users[u].totalSent + Bump(u, fromUser),
                                   totalReceived := db.users[u].totalReceived + Bump(u, toUser))
    ensures db'.blocks == db.blocks && db'.settings == db.settings
    ensures db'.reports == db.reports && db'.lastReportId == db.lastReportId
  {
    if !committed then db
    else
      var id := db.lastMessageId + 1;
      var msg := MessageRow(id, fromUser, toUser, content, messageType, now, false, None, false, None);
      var users := BumpCounters(db.users, fromUser, toUser);
      var day := Day(now);
      var analytics := BumpAnalytics(BumpAnalytics(db.analytics, (fromUser, day), true), (toUser, day), false);
      var db' := db.(users := users, messages := db.messages + [msg], lastMessageId := id, analytics := analytics);
      assert db'.messages[..|db.messages|] == db.messages;
      db'
  }

  /** Every message id stays unique: the new one is above all others. */
  lemma AddMessageKeepsIdsFresh(
    db: Db, fromUser: int, toUser: int, content: string, messageType: string, now: int, committed: bool)
    requires MessageIdsFresh(db)
    ensures MessageIdsFresh(AddMessage(db, fromUser, toUser, content, messageType, now, committed))
  {
    var db' := AddMessage(db, fromUser, toUser, content, messageType, now, committed);
    if committed {
      forall i | 0 <= i < |db'.messages|
        ensures 0 < db'.messages[i].id <= db'.lastMessageId
      {
        if i < |db.messages| {
          assert db'.messages[i] == db'.messages[..|db.messages|][i];
        }
      }
      forall i, j | 0 <= i < j < |db'.messages|
        ensures db'.messages[i].id != db'.messages[j].id
      {
        assert db'.messages[i] == db'.messages[..|db.messages|][i];
        if j < |db.messages| {
          assert db'.messages[j] == db'.messages[..|db.messages|][j];
        }
      }
    }
  }

  /** `mark_message_read`: sets the read flag and time of the message with
      that id; every other message is untouched. */
  function MarkMessageRead(db: Db, messageId: int, now: int): (db': Db)
    ensures |db'.messages| == |db.messages|
    ensures forall i :: 0 <= i < |db.messages| && db.messages[i].id == messageId ==>
      db'.messages[i] == db.messages[i].(isRead := true, readAt := Some(now))
    ensures forall i :: 0 <= i < |db.messages| && db.messages[i].id != messageId ==>
      db'.messages[i] == db.messages[i]
    ensures db'.(messages := db.messages) == db
  {
    var ms := db.messages;
    db.(messages := seq(|ms|, i requires 0 <= i < |ms| =>
      if ms[i].id == messageId then ms[i].(isRead := true, readAt := Some(now)) else ms[i]))
  }

  /** Marking a message read keeps every id and both row counts, and a
      second mark at the same time changes nothing more. */
  lemma MarkMessageReadKeepsIds(db: Db, messageId: int, now: int)
    ensures var db' := MarkMessageRead(db, messageId, now);
      && (MessageIdsFresh(db) ==> MessageIdsFresh(db'))
      && GetUserStats(db') == GetUserStats(db)
  {
    var db' := MarkMessageRead(db, messageId, now);
    assert forall i :: 0 <= i < |db.messages| ==> db'.messages[i].id == db.messages[i].id;
  }

  lemma MarkMessageReadIdempotent(db: Db, messageId: int, now: int)
    ensures MarkMessageRead(MarkMessageRead(db, messageId, now), messageId, now) == MarkMessageRead(db, messageId, now)
  {
    var db1 := MarkMessageRead(db, messageId, now);
    var db2 := MarkMessageRead(db1, messageId, now);
    assert forall i :: 0 <= i < |db.messages| ==> db1.messages[i].id == db.messages[i].id;
    assert db2.messages == db1.messages;
  }

  /** `report_message`: appends a pending report with the next id and
      flags the message as reported; both in one transaction. */
  function ReportMessage(db: Db, reporter: int, messageId: int, reportedUser: int, reason: string, now: int): (db': Db)
    ensures db'.reports == db.reports + [ReportRow(db.lastReportId + 1, reporter, messageId, reportedUser, reason, now, "pending")]
    ensures db'.lastReportId == db.lastReportId + 1
    ensures |db'.messages| == |db.messages|
    ensures forall i :: 0 <= i < |db.messages| ==>
      db'.messages[i] == (if db.messages[i].id == messageId then db.messages[i].(isReported := true) else db.messages[i])
    ensures db'.(messages := db.messages, reports := db.reports, lastReportId := db.lastReportId) == db
  {
    var ms := db.messages;
    var id := db.lastReportId + 1;
    db.(reports := db.reports + [ReportRow(id, reporter, messageId, reportedUser, reason, now, "pending")],
        lastReportId := id,
        messages := seq(|ms|, i requires 0 <= i < |ms| =>
          if ms[i].id == messageId then ms[i].(isReported := true) else ms[i]))
  }

  /** Reporting keeps message ids fresh and gives the report a fresh id. */
  lemma ReportMessageKeepsIdsFresh(db: Db, reporter: int, messageId: int, reportedUser: int, reason: string, now: int)
    requires MessageIdsFresh(db) && ReportIdsFresh(db)
    ensures var db' := ReportMessage(db, reporter, messageId, reportedUser, reason, now);
      MessageIdsFresh(db') && ReportIdsFresh(db')
  {
    var db' := ReportMessage(db, reporter, messageId, reportedUser, reason, now);
    assert forall i :: 0 <= i < |db.messages| ==> db'.messages[i].id == db.messages[i].id;
    forall i, j | 0 <= i < j < |db'.reports|
      ensures db'.reports[i].id != db'.reports[j].id
    {
      assert db'.reports[i] == db.reports[i];
    }
  }

  /** `get_user_stats`: the row counts of `users` and `messages`. */
  function GetUserStats(db: Db): (r: (int, int))
    ensures r.0 == |db.users.Keys| && r.1 == |db.messages|
    ensures MessageIdsFresh(db) ==> r.1 <= db.lastMessageId
  {
    MessageCountBelowLastId(db);
    (|db.users|, |db.messages|)
  }

  /** Adding a message adds one to the message count and leaves the user
      count alone. */
  lemma AddMessageCounted(db: Db, fromUser: int, toUser: int, content: string, messageType: string, now: int)
    ensures var db' := AddMessage(db, fromUser, toUser, content, messageType, now, true);
      GetUserStats(db') == (GetUserStats(db).0, GetUserStats(db).1 + 1)
  {
  }

  // ------------------------------------------------------------- profile

  datatype Profile = Profile(
    userId: int,
    username: Option<string>,
    firstName: Option<string>,
    joinDate: int,
    lastActive: int,
    messagesSent: int,
    messagesReceived: int,
    isPremium: bool)

  /** `get_user_profile`: `None` for an unknown user, the row's profile and
      counters otherwise. */
  function GetUserProfile(db: Db, uid: int): (r: Option<Profile>)
    ensures r.Some? <==> uid in db.users
    ensures r.Some? ==>
      && r.value.userId == uid
      && r.value.messagesSent == db.users[uid].totalSent
      && r.value.messagesReceived == db.users[uid].totalReceived
      && r.value.joinDate == db.users[uid].joinDate
  {
    if uid in db.users then
      var u := db.users[uid];
      Some(Profile(uid, u.username, u.firstName, u.joinDate, u.lastActive, u.totalSent, u.totalReceived, u.isPremium))
    else None
  }

  /** Refreshing activity shows only in the profile's `last_active`. */
  lemma ActivityShowsInProfile(db: Db, uid: int, now: int)
    requires UserExists(db, uid)
    ensures GetUserProfile(UpdateUserActivity(db, uid, now), uid) == Some(GetUserProfile(db, uid).value.(lastActive := now))
  {
  }

  /** A committed message shows in the sender's and the recipient's
      profile counters, and in nobody else's. */
  lemma AddMessageShowsInProfiles(
    db: Db, fromUser: int, toUser: int, content: string, messageType: string, now: int, u: int)
    requires UserExists(db, u)
    ensures var p := GetUserProfile(AddMessage(db, fromUser, toUser, content, messageType, now, true), u);
      && p.Some?
      && p.value.messagesSent == GetUserProfile(db, u).value.messagesSent + Bump(u, fromUser)
      && p.value.messagesReceived == GetUserProfile(db, u).value.messagesReceived + Bump(u, toUser)
  {
  }

  // ------------------------------------------------------------- history

  datatype Direction = Sent | Received

  datatype HistoryEntry = HistoryEntry(
    id: int,
    fromUser: int,
    toUser: int,
    content: string,
    messageType: string,
    timestamp: int,
    isRead: bool,
    direction: Direction)

  predicate Involves(m: MessageRow, uid: int) {
    m.fromUser == uid || m.toUser == uid
  }

  /** `WHERE from_user_id = ? OR to_user_id = ?`, in table order. */
  function Involving(ms: seq<MessageRow>, uid: int): (r: seq<MessageRow>)
    ensures forall i :: 0 <= i < |r| ==> Involves(r[i], uid)
    ensures forall m :: m in r <==> m in ms && Involves(m, uid)
    ensures multiset(r) <= multiset(ms)
    ensures |r| <= |ms|
    decreases |ms|
  {
    if |ms| == 0 then []
    else
      var rest := Involving(ms[1..], uid);
      Uncons(ms);
      if Involves(ms[0], uid) then [ms[0]] + rest else rest
  }

  /** A non-empty sequence is its head followed by its tail. */
  lemma Uncons<T>(s: seq<T>)
    requires |s| > 0
    ensures multiset(s) == multiset{s[0]} + multiset(s[1..])
    ensures forall x :: x in s <==> x == s[0] || x in s[1..]
  {
    assert s == [s[0]] + s[1..];
  }

  ghost predicate NewestFirst(s: seq<MessageRow>) {
    forall i, j :: 0 <= i < j < |s| ==> s[i].timestamp >= s[j].timestamp
  }

  /** Inserts `m` in front of the first message no newer than it. */
  function InsertByTime(m: MessageRow, s: seq<MessageRow>): (r: seq<MessageRow>)
    ensures multiset(r) == multiset(s) + multiset{m}
    decreases |s|
  {
    if |s| == 0 || m.timestamp >= s[0].timestamp then
      [m] + s
    else
      assert s == [s[0]] + s[1..];
      [s[0]] + InsertByTime(m, s[1..])
  }

  /** Inserting into a newest-first list keeps it newest first. */
  lemma {:induction false} InsertKeepsOrder(m: MessageRow, s: seq<MessageRow>)
    requires NewestFirst(s)
    ensures NewestFirst(InsertByTime(m, s))
    decreases |s|
  {
    if |s| == 0 || m.timestamp >= s[0].timestamp {
      forall i | 0 <= i < |s|
        ensures m.timestamp >= s[i].timestamp
      {
        if i > 0 {
          assert s[0].timestamp >= s[i].timestamp;
        }
      }
      ConsKeepsOrder(m, s);
    } else {
      var rest := InsertByTime(m, s[1..]);
      InsertKeepsOrder(m, s[1..]);
      forall i | 0 <= i < |rest|
        ensures s[0].timestamp >= rest[i].timestamp
      {
        InsertedFrom(m, s[1..], rest[i]);
        if rest[i] != m {
          var k :| 0 <= k < |s[1..]| && s[1..][k] == rest[i];
          assert s[k + 1] == rest[i];
        }
      }
      ConsKeepsOrder(s[0], rest);
    }
  }

  /** Every message of an insertion is the inserted one or an old one. */
  lemma InsertedFrom(m: MessageRow, s: seq<MessageRow>, x: MessageRow)
    requires x in InsertByTime(m, s)
    ensures x == m || x in s
  {
    assert x in multiset(InsertByTime(m, s));
  }

  /** A message no older than every message of a newest-first list can
      head it. */
  lemma ConsKeepsOrder(x: MessageRow, s: seq<MessageRow>)
    requires NewestFirst(s)
    requires forall i :: 0 <= i < |s| ==> x.timestamp >= s[i].timestamp
    ensures NewestFirst([x] + s)
  {
    var r := [x] + s;
    forall i, j | 0 <= i < j < |r|
      ensures r[i].timestamp >= r[j].timestamp
    {
      assert r[j] == s[j - 1];
      if i > 0 {
        assert r[i] == s[i - 1];
      }
    }
  }

  /** `ORDER BY timestamp DESC`. SQL leaves the order of equal timestamps
      open; the model settles it by insertion sort. */
  function SortNewestFirst(s: seq<MessageRow>): (r: seq<MessageRow>)
    ensures multiset(r) == multiset(s)
    ensures |r| == |s|
    ensures NewestFirst(r)
    decreases |s|
  {
    if |s| == 0 then []
    else
      assert s == [s[0]] + s[1..];
      var rest := SortNewestFirst(s[1..]);
      InsertKeepsOrder(s[0], rest);
      var r := InsertByTime(s[0], rest);
      assert |r| == |s| by {
        assert |multiset(r)| == |multiset(s)|;
      }
      r
  }

  /** `LIMIT n`: SQLite reads a negative limit as no limit. */
  function Limit<T>(s: seq<T>, n: int): (r: seq<T>)
    ensures n < 0 ==> r == s
    ensures n >= 0 ==> |r| == (if n < |s| then n else |s|)
    ensures r == s[..|r|]
    ensures multiset(r) <= multiset(s)
  {
    var r := if n < 0 || n >= |s| then s else s[..n];
    assert s == r + s[|r|..];
    r
  }

  /** The rows `get_message_history` selects. */
  function RecentInvolving(db: Db, uid: int, limit: int): seq<MessageRow> {
    Limit(SortNewestFirst(Involving(db.messages, uid)), limit)
  }

  /** The selected rows are messages involving the user, newest first,
      as many as the limit allows. */
  lemma RecentFacts(db: Db, uid: int, limit: int)
    ensures var r := RecentInvolving(db, uid, limit);
      && (forall i :: 0 <= i < |r| ==> r[i] in db.messages && Involves(r[i], uid))
      && NewestFirst(r)
      && |r| == (if 0 <= limit < |Involving(db.messages, uid)| then limit else |Involving(db.messages, uid)|)
      && multiset(r) <= multiset(Involving(db.messages, uid))
  {
    var sorted := SortNewestFirst(Involving(db.messages, uid));
    var r := RecentInvolving(db, uid, limit);
    forall i | 0 <= i < |r|
      ensures r[i] in db.messages && Involves(r[i], uid)
    {
      assert r[i] == sorted[i];
      assert r[i] in multiset(sorted);
      assert r[i] in Involving(db.messages, uid);
    }
    forall i, j | 0 <= i < j < |r|
      ensures r[i].timestamp >= r[j].timestamp
    {
      assert r[i] == sorted[i] && r[j] == sorted[j];
    }
  }

  /** A message involving the user that the limit cut off is no newer than
      any message that was kept. */
  lemma RecentIsNewest(db: Db, uid: int, limit: int, m: MessageRow)
    requires m in db.messages && Involves(m, uid) && m !in RecentInvolving(db, uid, limit)
    ensures forall x :: x in RecentInvolving(db, uid, limit) ==> x.timestamp >= m.timestamp
  {
    var sorted := SortNewestFirst(Involving(db.messages, uid));
    var r := RecentInvolving(db, uid, limit);
    assert r == sorted[..|r|];
    assert m in sorted by {
      assert m in multiset(Involving(db.messages, uid));
    }
    DroppedIsOlder(sorted, |r|, m);
  }

  /** In a newest-first list, a message past a prefix is no newer than
      anything in the prefix. */
  lemma DroppedIsOlder(sorted: seq<MessageRow>, n: nat, m: MessageRow)
    requires NewestFirst(sorted) && n <= |sorted|
    requires m in sorted && m !in sorted[..n]
    ensures forall x :: x in sorted[..n] ==> x.timestamp >= m.timestamp
  {
    var j :| 0 <= j < |sorted| && sorted[j] == m;
    assert j >= n by {
      assert forall i :: 0 <= i < n ==> sorted[..n][i] == sorted[i];
    }
    forall x | x in sorted[..n]
      ensures x.timestamp >= m.timestamp
    {
      var i :| 0 <= i < n && sorted[..n][i] == x;
      assert sorted[i] == x;
    }
  }

  /** In rows with distinct ids every row occurs at most once. */
  lemma {:induction false} DistinctIdsOccurOnce(ms: seq<MessageRow>, x: MessageRow)
    requires forall i, j :: 0 <= i < j < |ms| ==> ms[i].id != ms[j].id
    ensures multiset(ms)[x] <= 1
    decreases |ms|
  {
    if |ms| > 0 {
      assert ms == [ms[0]] + ms[1..];
      DistinctIdsOccurOnce(ms[1..], x);
      if ms[0] == x {
        forall k | 0 <= k < |ms[1..]|
          ensures ms[1..][k] != x
        {
          assert ms[1..][k] == ms[k + 1];
        }
        assert x !in ms[1..];
      }
    }
  }

  /** Rows drawn, as a sub-multiset, from rows with distinct ids have
      distinct ids. */
  lemma SubRowsKeepDistinctIds(r: seq<MessageRow>, ms: seq<MessageRow>)
    requires multiset(r) <= multiset(ms)
    requires forall i, j :: 0 <= i < j < |ms| ==> ms[i].id != ms[j].id
    ensures forall i, j :: 0 <= i < j < |r| ==> r[i].id != r[j].id
  {
    forall i, j | 0 <= i < j < |r|
      ensures r[i].id != r[j].id
    {
      assert r[i] in multiset(ms) && r[j] in multiset(ms);
      var a :| 0 <= a < |ms| && ms[a] == r[i];
      var b :| 0 <= b < |ms| && ms[b] == r[j];
      if r[i] == r[j] {
        assert r == r[..j] + r[j..];
        assert r[..j][i] == r[i] && r[j..][0] == r[i];
        assert multiset(r)[r[i]] == multiset(r[..j])[r[i]] + multiset(r[j..])[r[i]];
        DistinctIdsOccurOnce(ms, r[i]);
        assert false;
      }
      assert a != b;
    }
  }

  /** With fresh message ids, the selected history rows are distinct
      messages. */
  lemma RecentRowsDistinct(db: Db, uid: int, limit: int)
    ensures MessageIdsFresh(db) ==>
      var r := RecentInvolving(db, uid, limit);
      forall i, j :: 0 <= i < j < |r| ==> r[i].id != r[j].id
  {
    if MessageIdsFresh(db) {
      RecentFacts(db, uid, limit);
      SubRowsKeepDistinctIds(RecentInvolving(db, uid, limit), db.messages);
    }
  }

  function ToEntry(m: MessageRow, uid: int): HistoryEntry {
    HistoryEntry(m.id, m.fromUser, m.toUser, m.content, m.messageType, m.timestamp, m.isRead,
                 if m.fromUser == uid then Sent else Received)
  }

  /** The result dictionaries, one per selected row, in row order. */
  function ToEntries(r: seq<MessageRow>, uid: int): (h: seq<HistoryEntry>)
    ensures |h| == |r|
    ensures forall i :: 0 <= i < |r| ==> h[i] == ToEntry(r[i], uid)
  {
    seq(|r|, i requires 0 <= i < |r| => ToEntry(r[i], uid))
  }

  /** `get_message_history`: the newest `limit` messages the user sent or
      received, newest first, each marked `sent` exactly when the user is
      its sender. */
  function GetMessageHistory(db: Db, uid: int, limit: int): (h: seq<HistoryEntry>)
    ensures forall i :: 0 <= i < |h| ==> h[i].fromUser == uid || h[i].toUser == uid
    ensures forall i :: 0 <= i < |h| ==> (h[i].direction == Sent <==> h[i].fromUser == uid)
    ensures forall i, j :: 0 <= i < j < |h| ==> h[i].timestamp >= h[j].timestamp
    ensures limit >= 0 ==> |h| <= limit
    ensures |h| == (if 0 <= limit < |Involving(db.messages, uid)| then limit else |Involving(db.messages, uid)|)
    ensures forall i :: 0 <= i < |h| ==> exists m :: m in db.messages && ToEntry(m, uid) == h[i]
    ensures MessageIdsFresh(db) ==> forall i, j :: 0 <= i < j < |h| ==> h[i].id != h[j].id
  {
    HistoryFacts(db, uid, limit);
    HistoryCountAndIds(db, uid, limit);
    ToEntries(RecentInvolving(db, uid, limit), uid)
  }

  /** The facts about the selected rows, carried over to the dictionaries. */
  lemma HistoryFacts(db: Db, uid: int, limit: int)
    ensures var h := ToEntries(RecentInvolving(db, uid, limit), uid);
      && (forall i :: 0 <= i < |h| ==> h[i].fromUser == uid || h[i].toUser == uid)
      && (forall i :: 0 <= i < |h| ==> (h[i].direction == Sent <==> h[i].fromUser == uid))
      && (forall i, j :: 0 <= i < j < |h| ==> h[i].timestamp >= h[j].timestamp)
      && (forall i :: 0 <= i < |h| ==> exists m :: m in db.messages && ToEntry(m, uid) == h[i])
  {
    RecentFacts(db, uid, limit);
    EntriesOfRows(RecentInvolving(db, uid, limit), uid, db.messages);
  }

  lemma HistoryCountAndIds(db: Db, uid: int, limit: int)
    ensures var h := ToEntries(RecentInvolving(db, uid, limit), uid);
      && |h| == (if 0 <= limit < |Involving(db.messages, uid)| then limit else |Involving(db.messages, uid)|)
      && (MessageIdsFresh(db) ==> forall i, j :: 0 <= i < j < |h| ==> h[i].id != h[j].id)
  {
    RecentFacts(db, uid, limit);
    RecentRowsDistinct(db, uid, limit);
    EntriesOfRows(RecentInvolving(db, uid, limit), uid, db.messages);
  }

  /** What the selected rows satisfy carries over to their dictionaries. */
  lemma EntriesOfRows(r: seq<MessageRow>, uid: int, ms: seq<MessageRow>)
    requires forall i :: 0 <= i < |r| ==> r[i] in ms && Involves(r[i], uid)
    ensures var h := ToEntries(r, uid);
      && (forall i :: 0 <= i < |h| ==> h[i].fromUser == uid || h[i].toUser == uid)
      && (forall i :: 0 <= i < |h| ==> (h[i].direction == Sent <==> h[i].fromUser == uid))
      && (NewestFirst(r) ==> forall i, j :: 0 <= i < j < |h| ==> h[i].timestamp >= h[j].timestamp)
      && (forall i :: 0 <= i < |h| ==> exists m :: m in ms && ToEntry(m, uid) == h[i])
      && ((forall i, j :: 0 <= i < j < |r| ==> r[i].id != r[j].id) ==>
            forall i, j :: 0 <= i < j < |h| ==> h[i].id != h[j].id)
  {
    var h := ToEntries(r, uid);
    forall i | 0 <= i < |h|
      ensures exists m :: m in ms && ToEntry(m, uid) == h[i]
    {
      assert r[i] in ms && ToEntry(r[i], uid) == h[i];
    }
  }

  lemma EntriesCoverRows(r: seq<MessageRow>, uid: int, m: MessageRow)
    ensures m in r ==> ToEntry(m, uid) in ToEntries(r, uid)
  {
    if m in r {
      var i :| 0 <= i < |r| && r[i] == m;
      assert ToEntries(r, uid)[i] == ToEntry(m, uid);
    }
  }

  /** A message left out of the history is no newer than any returned
      entry. */
  lemma HistoryKeepsNewest(db: Db, uid: int, limit: int, m: MessageRow)
    requires m in db.messages && Involves(m, uid)
    ensures ToEntry(m, uid) !in GetMessageHistory(db, uid, limit) ==>
      forall e :: e in GetMessageHistory(db, uid, limit) ==> e.timestamp >= m.timestamp
  {
    var r := RecentInvolving(db, uid, limit);
    var h := ToEntries(r, uid);
    assert h == GetMessageHistory(db, uid, limit);
    if ToEntry(m, uid) !in h {
      EntriesCoverRows(r, uid, m);
      RecentIsNewest(db, uid, limit, m);
      forall e | e in h
        ensures e.timestamp >= m.timestamp
      {
        var i :| 0 <= i < |h| && h[i] == e;
        assert r[i] in r;
      }
    }
  }

  // --------------------------------------------------------- broadcasting

  datatype ListedUser = ListedUser(userId: int, username: string, firstName: string)

  /** The ids `get_all_users` lists: users without the admin flag and
      with a non-zero id (`if user_id`), newest join date first. Dropping
      id 0 before ordering gives the same list as dropping it after, since
      the order is total. */
  function ListedIds(db: Db): (r: seq<int>)
    ensures forall i :: 0 <= i < |r| ==> r[i] in db.users
    ensures forall u :: u in r <==> u in db.users && !db.users[u].isBlocked && u != 0
    ensures forall i, j :: 0 <= i < j < |r| ==> r[i] != r[j]
    ensures forall i, j :: 0 <= i < j < |r| ==> db.users[r[i]].joinDate >= db.users[r[j]].joinDate
  {
    var joined := Ordering.JoinDates(db.users, (r: UserRow) => r.joinDate);
    var listed := set u | u in db.users && !db.users[u].isBlocked && u != 0;
    Ordering.NewestFirst(joined, listed)
  }

  /** One row of the broadcast list: `(user_id, username or '', first_name or '')`. */
  function ListedRow(db: Db, uid: int): (r: ListedUser)
    requires uid in db.users
    ensures r.userId == uid
  {
    ListedUser(uid, OrText(db.users[uid].username, ""), OrText(db.users[uid].firstName, ""))
  }

  /** `get_all_users`: every unflagged user with a non-zero id exactly once,
      newest first, a missing username or first name read as `''`. */
  function GetAllUsers(db: Db): (r: seq<ListedUser>)
    ensures |r| == |ListedIds(db)|
    ensures forall i :: 0 <= i < |r| ==> r[i].userId == ListedIds(db)[i]
    ensures forall i :: 0 <= i < |r| ==>
      && r[i].userId in db.users
      && r[i].userId != 0
      && !IsUserBlockedByAdmin(db, r[i].userId)
      && r[i].username == OrText(db.users[r[i].userId].username, "")
      && r[i].firstName == OrText(db.users[r[i].userId].firstName, "")
    ensures forall i, j :: 0 <= i < j < |r| ==> r[i].userId != r[j].userId
    ensures forall i, j :: 0 <= i < j < |r| ==> db.users[r[i].userId].joinDate >= db.users[r[j].userId].joinDate
  {
    var ids := ListedIds(db);
    seq(|ids|, i requires 0 <= i < |ids| => ListedRow(db, ids[i]))
  }

  /** Every unflagged user with a non-zero id is listed. */
  lemma AllUsersComplete(db: Db, u: int)
    requires UserExists(db, u) && !IsUserBlockedByAdmin(db, u) && u != 0
    ensures exists i :: 0 <= i < |GetAllUsers(db)| && GetAllUsers(db)[i].userId == u
  {
    var ids := ListedIds(db);
    assert u in ids;
    var i :| 0 <= i < |ids| && ids[i] == u;
    assert GetAllUsers(db)[i].userId == u;
  }

  // ------------------------------------------------------------- settings

  /** The four column names `update_user_settings` accepts. */
  const SettingKeys: set<string> := {"notifications_enabled", "allow_media", "show_read_receipts", "language"}

  /** The column a settings key names. */
  function Column(row: SettingsRow, key: string): SqlValue
    requires key in SettingKeys
  {
    if key == "notifications_enabled" then row.notificationsEnabled
    else if key == "allow_media" then row.allowMedia
    else if key == "show_read_receipts" then row.showReadReceipts
    else row.language
  }

  datatype Settings = Settings(notificationsEnabled: bool, allowMedia: bool, showReadReceipts: bool, language: SqlValue)

  /** The dictionary `get_user_settings` returns when the user has no row. */
  const DefaultSettings: Settings := Settings(true, true, false, Text("en"))

  /** `get_user_settings`: the row read through `bool()`, or the defaults
      when there is no row. */
  function GetUserSettings(db: Db, uid: int): (r: Settings)
    ensures uid !in db.settings ==> r == DefaultSettings
    ensures uid in db.settings ==>
      && r.notificationsEnabled == Truthy(db.settings[uid].notificationsEnabled)
      && r.allowMedia == Truthy(db.settings[uid].allowMedia)
      && r.showReadReceipts == Truthy(db.settings[uid].showReadReceipts)
      && r.language == db.settings[uid].language
  {
    if uid in db.settings then
      var row := db.settings[uid];
      Settings(Truthy(row.notificationsEnabled), Truthy(row.allowMedia), Truthy(row.showReadReceipts), row.language)
    else DefaultSettings
  }

  /** The defaults returned without a row are what a fresh schema-default
      row reads as. */
  lemma DefaultsMatchSchema(db: Db, uid: int)
    requires uid !in db.settings
    ensures GetUserSettings(db, uid) == GetUserSettings(db.(settings := db.settings[uid := SchemaDefaultSettings]), uid)
  {
  }

  function Pick(updates: map<string, SqlValue>, key: string, current: SqlValue): SqlValue {
    if key in updates then updates[key] else current
  }

  /** `update_user_settings`: an `UPDATE` of the whitelisted keys only;
      other keys are ignored, and with no whitelisted key (or no row for
      the user) nothing changes. */
  function UpdateUserSettings(db: Db, uid: int, updates: map<string, SqlValue>): (db': Db)
    ensures db'.(settings := db.settings) == db
    ensures db'.settings.Keys == db.settings.Keys
    ensures forall v :: v != uid ==> Get(db'.settings, v) == Get(db.settings, v)
    ensures (forall k :: k in updates ==> k !in SettingKeys) ==> db' == db
    ensures uid in db.settings ==> forall k :: k in SettingKeys ==>
      Column(db'.settings[uid], k) == (if k in updates then updates[k] else Column(db.settings[uid], k))
  {
    if uid in db.settings && exists k :: k in updates && k in SettingKeys then
      var row := db.settings[uid];
      var row' := SettingsRow(
        Pick(updates, "notifications_enabled", row.notificationsEnabled),
        Pick(updates, "allow_media", row.allowMedia),
        Pick(updates, "show_read_receipts", row.showReadReceipts),
        Pick(updates, "language", row.language));
      db.(settings := db.settings[uid := row'])
    else
      db
  }

  /** Reading settings back after an update shows each whitelisted key as
      written (through `bool()` for the flags) and every other key as it
      was; a user without a row still reads the defaults. */
  lemma UpdatedSettingsReadBack(db: Db, uid: int, updates: map<string, SqlValue>)
    ensures var r := GetUserSettings(UpdateUserSettings(db, uid, updates), uid);
      && (uid !in db.settings ==> r == DefaultSettings)
      && (uid in db.settings ==>
        && r.notificationsEnabled == Truthy(Pick(updates, "notifications_enabled", db.settings[uid].notificationsEnabled))
        && r.allowMedia == Truthy(Pick(updates, "allow_media", db.settings[uid].allowMedia))
        && r.showReadReceipts == Truthy(Pick(updates, "show_read_receipts", db.settings[uid].showReadReceipts))
        && r.language == Pick(updates, "language", db.settings[uid].language))
  {
    var db' := UpdateUserSettings(db, uid, updates);
    if uid in db.settings {
      var row, row' := db.settings[uid], db'.settings[uid];
      assert Column(row', "notifications_enabled") == Pick(updates, "notifications_enabled", Column(row, "notifications_enabled"));
      assert Column(row', "allow_media") == Pick(updates, "allow_media", Column(row, "allow_media"));
      assert Column(row', "show_read_receipts") == Pick(updates, "show_read_receipts", Column(row, "show_read_receipts"));
      assert Column(row', "language") == Pick(updates, "language", Column(row, "language"));
    }
  }

  /** Re-adding a user keeps their settings; a first `add_user` gives them
      the defaults. */
  lemma AddUserSettings(
    db: Db, uid: int, username: Option<string>, firstName: Option<string>,
    lastName: Option<string>, languageCode: Option<string>, isBot: bool, isPremium: bool, now: int)
    ensures var db' := AddUser(db, uid, username, firstName, lastName, languageCode, isBot, isPremium, now, true);
      && GetUserSettings(db', uid) == GetUserSettings(db, uid)
      && (uid !in db.settings ==> GetUserSettings(db', uid) == DefaultSettings)
  {
  }

  // ----------------------------------------------------------- rate limit

  /** Messages from `uid` stamped at or after `since`. */
  function CountSentSince(ms: seq<MessageRow>, uid: int, since: int): nat
    decreases |ms|
  {
    if |ms| == 0 then 0
    else
      var last := ms[|ms| - 1];
      CountSentSince(ms[..|ms| - 1], uid, since) + (if last.fromUser == uid && last.timestamp >= since then 1 else 0)
  }

  /** Messages from `uid`, at any time. */
  function CountSent(ms: seq<MessageRow>, uid: int): nat
    decreases |ms|
  {
    if |ms| == 0 then 0
    else CountSent(ms[..|ms| - 1], uid) + (if ms[|ms| - 1].fromUser == uid then 1 else 0)
  }

  /** The positions of the rows the SQL `WHERE` clause selects: sent by
      `uid` and stamped at or after `since`. */
  function SentSinceRows(ms: seq<MessageRow>, uid: int, since: int): set<int> {
    set i | 0 <= i < |ms| && ms[i].fromUser == uid && ms[i].timestamp >= since
  }

  /** The recursive count is `COUNT(*)` over exactly the selected rows: a
      row stamped before `since`, or sent by someone else, adds nothing. */
  lemma {:induction false} CountSinceCountsRows(ms: seq<MessageRow>, uid: int, since: int)
    ensures CountSentSince(ms, uid, since) == |SentSinceRows(ms, uid, since)|
    decreases |ms|
  {
    if |ms| > 0 {
      var last := |ms| - 1;
      var p := ms[..last];
      CountSinceCountsRows(p, uid, since);
      var rows := SentSinceRows(ms, uid, since);
      var prior := SentSinceRows(p, uid, since);
      assert forall i :: 0 <= i < last ==> p[i] == ms[i];
      if ms[last].fromUser == uid && ms[last].timestamp >= since {
        assert rows == prior + {last};
      } else {
        assert rows == prior;
      }
    }
  }

  lemma {:induction false} CountSinceAtMostSent(ms: seq<MessageRow>, uid: int, since: int)
    ensures CountSentSince(ms, uid, since) <= CountSent(ms, uid)
    decreases |ms|
  {
    if |ms| > 0 {
      CountSinceAtMostSent(ms[..|ms| - 1], uid, since);
    }
  }

  lemma {:induction false} CountSinceAntitone(ms: seq<MessageRow>, uid: int, later: int, earlier: int)
    requires earlier <= later
    ensures CountSentSince(ms, uid, later) <= CountSentSince(ms, uid, earlier)
    decreases |ms|
  {
    if |ms| > 0 {
      CountSinceAntitone(ms[..|ms| - 1], uid, later, earlier);
    }
  }

  /** The instants SQLite's date functions can represent, in Unix seconds:
      Julian day 0 (noon, 24 November 4714 BC) up to the last second of
      the year 9999. A modifier that carries a date outside this range
      makes `datetime()` return NULL. */
  const EarliestInstant: int := -210866760000
  const LatestInstant: int := 253402300799

  /** SQLite rejects an `hours` modifier whose magnitude reaches this
      bound (the single-precision constant 1.2897e11, widened). */
  const HourModifierLimit: int := 128969998336

  /** `datetime('now', '-<hours> hours')` in seconds, or `None` where
      SQLite gives NULL: a negative `hours` writes `--N hours`, which is no
      number; the magnitude reaches the modifier limit; or the shifted
      instant leaves the representable range. */
  function WindowStart(now: int, hours: int): (start: Option<int>)
    ensures start.Some? ==> 0 <= hours < HourModifierLimit
    ensures start.Some? ==> start.value + hours * SecondsPerHour == now
    ensures start.Some? ==> EarliestInstant <= start.value <= LatestInstant
    ensures (0 <= hours < HourModifierLimit &&
             EarliestInstant <= now - hours * SecondsPerHour <= LatestInstant) ==> start.Some?
  {
    if hours < 0 || hours >= HourModifierLimit then None
    else
      var t := now - hours * SecondsPerHour;
      if EarliestInstant <= t <= LatestInstant then Some(t) else None
  }

  /** `get_rate_limit_count`: `uid`'s messages in the trailing `hours`
      window ending at `now`. Where the window start is NULL the
      comparison `timestamp >= NULL` holds for no row. */
  function GetRateLimitCount(db: Db, uid: int, hours: int, now: int): (n: nat)
    ensures n <= CountSent(db.messages, uid)
    ensures WindowStart(now, hours).None? ==> n == 0
    ensures hours < 0 || hours >= HourModifierLimit ==> n == 0
    ensures WindowStart(now, hours).Some? ==> n == CountSentSince(db.messages, uid, WindowStart(now, hours).value)
  {
    match WindowStart(now, hours)
    case None => 0
    case Some(start) =>
      CountSinceAtMostSent(db.messages, uid, start);
      CountSentSince(db.messages, uid, start)
  }

  /** Whenever the window start is representable, the count is the number
      of `uid`'s rows stamped at or after it, and no others. */
  lemma RateCountIsSelectedRows(db: Db, uid: int, hours: int, now: int)
    requires WindowStart(now, hours).Some?
    ensures GetRateLimitCount(db, uid, hours, now) == |SentSinceRows(db.messages, uid, WindowStart(now, hours).value)|
  {
    CountSinceCountsRows(db.messages, uid, WindowStart(now, hours).value);
  }

  /** Inside SQLite's range, a wider window counts at least as many
      messages. */
  lemma RateCountMonotone(db: Db, uid: int, h1: int, h2: int, now: int)
    requires h1 <= h2
    requires WindowStart(now, h2).Some?
    ensures GetRateLimitCount(db, uid, h1, now) <= GetRateLimitCount(db, uid, h2, now)
  {
    if WindowStart(now, h1).Some? {
      CountSinceAntitone(db.messages, uid, WindowStart(now, h1).value, WindowStart(now, h2).value);
    }
  }

  /** Past SQLite's range the window start is NULL and nothing counts,
      however many messages the user sent. */
  lemma RateWindowPastRangeCountsNothing(db: Db, uid: int, hours: int, now: int)
    requires hours >= 0 && now - hours * SecondsPerHour < EarliestInstant
    ensures GetRateLimitCount(db, uid, hours, now) == 0
  {
  }

  /** A message just added counts against its sender's window and nobody
      else's, whenever the window is representable. */
  lemma AddMessageCountsTowardsRate(
    db: Db, fromUser: int, toUser: int, content: string, messageType: string, now: int, uid: int, hours: int)
    ensures var db' := AddMessage(db, fromUser, toUser, content, messageType, now, true);
      GetRateLimitCount(db', uid, hours, now) ==
        GetRateLimitCount(db, uid, hours, now) + (if WindowStart(now, hours).Some? then Bump(uid, fromUser) else 0)
  {
    var db' := AddMessage(db, fromUser, toUser, content, messageType, now, true);
    assert db'.messages[..|db'.messages| - 1] == db.messages;
  }

  // ------------------------------------------------- cross-table facts

  /** Re-adding a user the admin blocked keeps the block. */
  lemma ReAddKeepsAdminBlock(
    db: Db, uid: int, username: Option<string>, firstName: Option<string>,
    lastName: Option<string>, languageCode: Option<string>, isBot: bool, isPremium: bool, now: int, committed: bool)
    ensures IsUserBlockedByAdmin(AddUser(db, uid, username, firstName, lastName, languageCode, isBot, isPremium, now, committed), uid)
      == IsUserBlockedByAdmin(db, uid)
  {
  }

  /** A user the admin blocked drops out of the broadcast list, and comes
      back once unblocked. */
  lemma AdminBlockHidesFromListing(db: Db, uid: int, reason: Option<string>)
    requires UserExists(db, uid) && uid != 0
    ensures forall i :: 0 <= i < |GetAllUsers(BlockUserByAdmin(db, uid, reason))| ==>
      GetAllUsers(BlockUserByAdmin(db, uid, reason))[i].userId != uid
    ensures exists i :: (0 <= i < |GetAllUsers(UnblockUserByAdmin(db, uid))| &&
      GetAllUsers(UnblockUserByAdmin(db, uid))[i].userId == uid)
  {
    AllUsersComplete(UnblockUserByAdmin(db, uid), uid);
  }
}
